=== FILE: README.md ===
# Usage-analysis pipeline of the AI usage optimizer

This project is a Dafny model of the two pieces of real logic in the AI usage
optimizer web app, together with proofs about them.

- **The upload page** (`src/pages/UploadPage.jsx`):
  - it takes in files, keeping only CSV files and skipping those whose path is already listed (two files with one path in the same batch are both kept);
  - it removes a file;
  - it parses every file, keeps the rows that hold any text, and reports progress;
  - `analyzeData` turns all rows into one analysis:
    - `findColumn` resolves the cost and model columns by case-insensitive header synonyms;
    - a row pass adds up the cost and counts requests per model;
    - the busiest five models are kept, sorted by requests and dressed for display;
    - four recommendations, a seven-day profile and the potential savings follow from fixed ratios;
    - fixed fallbacks cover data that has no cost or no model.
- **The story view** (`src/pages/StoryDashboard.jsx`):
  - it shows the analysis it is handed, or a fixed default;
  - it derives the busiest weekday, the length of the reporting period and the per-day averages;
  - it builds the ordered list of slides;
  - it maps the scroll position to a slide;
  - it lets the reader "collect" the savings of each recommendation into a running total.

Modules, one per file, in dependency order:

- `Basics` (`basics.dfy`): `Option`, `Math.round` on exact reals, `Array.prototype.filter`, and the ASCII `toLowerCase`, `trim` and `endsWith`.
- `ColumnResolver` (`column_resolver.dfy`): rows as header/cell lists, the candidate header lists, and `findColumn`.
- `Aggregator` (`aggregator.dfy`): the row pass, i.e. the total cost and `modelUsage` as an insertion-ordered table.
- `ModelTable` (`model_table.dfy`): the stable descending sort, the top five, and the display rows.
- `Report` (`report.dfy`): the analysis record shared by both pages.
- `Analyze` (`analyze.dfy`): `analyzeData` and its fallbacks, ratios and weekly profile.
- `Upload` (`upload.dfy`): file intake, removal, the row filter, progress, and the analyze action.
- `Story` (`story.dfy`): the story view's derived values.
- `Savings` (`savings.dfy`): collecting savings, both as the page does it and corrected.

Numbers are exact reals and integers. `Math.round(x)` is `floor(x + 0.5)`. `parseFloat` and the CSV parser are parameters of the model.

Behaviour of the code worth knowing:

- Headers are compared untrimmed. `PaddedHeaderIsMissed` shows that a header written ` Total_Cost ` is not found.
- The weekly cost shares are 0.14, 0.18, 0.15, 0.20, 0.17, 0.09 and 0.07. The request shares are 0.15, 0.18, 0.16, 0.19, 0.16, 0.09 and 0.07.
- Recommendations do not depend on the data beyond the spend: the code always emits the same four, claiming 20%, 12%, 10% and 6% of the total spent.
- Negative costs are added to the total, not skipped (`Aggregator.NegativeCostLowersTotal`).
- A fresh analysis has no `timePeriod` and no `extendedThinking`: rows are not de-duplicated, and neither the period nor thinking totals are derived from them.

## Model

| member | source | states |
|---|---|---|
| Basics.Filter | src/pages/UploadPage.jsx:172-174 | `filter` never adds elements |
| Basics.FilterMembers | src/pages/UploadPage.jsx:172-174 | `filter` keeps exactly the elements that pass the test |
| Basics.FilterAppend | src/pages/UploadPage.jsx:172-174 | filtering a concatenation filters its parts in order, so order and repetitions are kept |
| Basics.Round | src/pages/UploadPage.jsx:257 | `Math.round` lands within half a unit of its argument, halves going up |
| Basics.RoundMonotone | src/pages/UploadPage.jsx:177 | rounding never reverses the order of two numbers |
| Basics.RoundOfInt | src/pages/StoryDashboard.jsx:186 | rounding a whole number gives it back |
| Basics.Lower | src/pages/UploadPage.jsx:202 | lower-casing keeps the length and maps every character on its own |
| Basics.LowerIdempotent | src/pages/UploadPage.jsx:202 | lower-casing twice is lower-casing once |
| Basics.TrimStart | src/pages/UploadPage.jsx:173 | what is dropped is all white space, and what is kept starts with a non-space |
| Basics.TrimEnd | src/pages/UploadPage.jsx:173 | what is dropped is all white space, and what is kept ends with a non-space |
| Basics.Trim | src/pages/UploadPage.jsx:231 | the trimmed text neither starts nor ends with a space, and it is empty exactly when the text is all white space |
| Basics.TrimIsMiddle | src/pages/UploadPage.jsx:231 | the trimmed text is a slice of the text with only white space before and after it |
| Basics.TrimEmptyIffBlank | src/pages/UploadPage.jsx:173 | trimming leaves nothing exactly when the text is all white space |
| ColumnResolver.FirstMatch | src/pages/UploadPage.jsx:202 | `keys.find` returns the first header equal to the candidate ignoring case, or none when no header is |
| ColumnResolver.Probe | src/pages/UploadPage.jsx:202-203 | a probe yields only a non-empty cell, and nothing when no header matches the candidate |
| ColumnResolver.ProbeMeans | src/pages/UploadPage.jsx:202-203 | the probe looks only at the first matching header and succeeds exactly when that header and its cell are non-empty, yielding that cell |
| ColumnResolver.FindColumn | src/pages/UploadPage.jsx:199-206 | the result is a non-empty cell from the earliest candidate whose probe succeeds, and it is null exactly when every probe fails |
| ColumnResolver.FindColumnEarliest | src/pages/UploadPage.jsx:201-203 | if candidate i succeeds and all earlier ones fail, its cell is the one returned |
| ColumnResolver.CandidateCaseIrrelevant | src/pages/UploadPage.jsx:202 | candidate lists differing only in letter case resolve to the same cell |
| ColumnResolver.HeaderCaseIrrelevant | src/pages/UploadPage.jsx:202 | rows whose headers differ only in letter case resolve to the same cell |
| ColumnResolver.ProbeCaseIrrelevant | src/pages/UploadPage.jsx:202-203 | trying one candidate does not depend on letter case in either the header or the candidate |
| ColumnResolver.PaddedHeaderIsMissed | src/pages/UploadPage.jsx:202 | headers are not trimmed, so a header padded with spaces matches no cost candidate |
| Aggregator.TotalCostAppend | src/pages/UploadPage.jsx:218-226 | the cost total over concatenated rows is the sum of the two totals |
| Aggregator.CostOf | src/pages/UploadPage.jsx:220-225 | a row adds its resolved cost cell's parsed number when it parses, and nothing when the cell is missing or is not a number |
| Aggregator.TotalCost | src/pages/UploadPage.jsx:218-226 | no rows cost nothing; one row costs its own cost, so with TotalCostAppend the total is the sum of the rows' costs; unpriced rows add nothing; the total is non-negative when every parsed cost is |
| Aggregator.NegativeCostLowersTotal | src/pages/UploadPage.jsx:220-225 | a negative parsed cost is added, not skipped, so it lowers the total |
| Aggregator.ModelOf | src/pages/UploadPage.jsx:229-232 | a row counts under a model exactly when its resolved model cell is not all white space, and the model is that cell trimmed |
| Aggregator.Bump | src/pages/UploadPage.jsx:233 | counting a row adds at most one entry; with BumpLookup and BumpShape, the counted model's count grows by one and nothing else changes |
| Aggregator.BumpLookup | src/pages/UploadPage.jsx:233 | counting a row adds one to its own model's count and leaves every other count alone |
| Aggregator.BumpSum | src/pages/UploadPage.jsx:233 | counting a row adds exactly one to the sum of all counts |
| Aggregator.BumpShape | src/pages/UploadPage.jsx:233 | existing entries keep their places, and a new model is appended with count one |
| Aggregator.BumpKeys | src/pages/UploadPage.jsx:233 | after counting, the keys are the old keys plus the counted model |
| Aggregator.BumpWellFormed | src/pages/UploadPage.jsx:233 | the count table keeps distinct keys and positive counts |
| Aggregator.ModelUsage | src/pages/UploadPage.jsx:228-235 | the table has at most one entry per row, each with a non-empty name and a count of at least one |
| Aggregator.ModelUsageCounts | src/pages/UploadPage.jsx:228-235 | each model's count equals the number of rows naming it exactly, the keys are exactly the named models, and the counts add up to the rows naming a model, at most all rows |
| Aggregator.UsageKeyIffPositive | src/pages/UploadPage.jsx:233 | in a well-formed table a model is a key exactly when its count is positive |
| Aggregator.ModelUsageFirstSeenOrder | src/pages/UploadPage.jsx:251 | table entries stay in order of first appearance as more rows arrive |
| ModelTable.Insert | src/pages/UploadPage.jsx:252 | one insertion step of the sort adds exactly one entry |
| ModelTable.InsertPlacement | src/pages/UploadPage.jsx:252 | the inserted entry lands after every busier entry and before the first entry with no more requests, the others keeping their order |
| ModelTable.SortByRequests | src/pages/UploadPage.jsx:252 | the sort keeps the number of entries |
| ModelTable.InsertPermutes | src/pages/UploadPage.jsx:252 | one insertion step of the sort loses and invents no entry |
| ModelTable.InsertDescending | src/pages/UploadPage.jsx:252 | inserting into a descending list keeps it descending |
| ModelTable.WithCountCons | src/pages/UploadPage.jsx:252 | the entries with a given count of a list with an entry in front are that entry (when its count matches) followed by those of the rest |
| ModelTable.InsertWithCount | src/pages/UploadPage.jsx:252 | an inserted entry goes ahead of every entry with its own count |
| ModelTable.SortFacts | src/pages/UploadPage.jsx:252 | the sort is a permutation into descending request order that keeps tied entries in input order |
| ModelTable.TopModels | src/pages/UploadPage.jsx:251-253 | the top slice has min(5, n) entries, the first ones of the sorted table |
| ModelTable.TopModelsAreBusiest | src/pages/UploadPage.jsx:251-253 | the top slice has min(5, n) entries from the table, in descending order, and no dropped model has more requests than a kept one |
| ModelTable.DescendingSplit | src/pages/UploadPage.jsx:252-253 | cutting a descending list leaves no later entry busier than an earlier one |
| ModelTable.DisplayName | src/pages/UploadPage.jsx:259 | a name of at most 15 characters is kept; a longer one becomes its first 15 characters followed by `...`, so no display name exceeds 18 |
| ModelTable.RowFor | src/pages/UploadPage.jsx:254-264 | a row keeps its model's requests and shortened name, shows its usage percentage, takes colour `index % 5`, and costs that percentage of a positive total cost (between zero and the total) or 2.3 per percent otherwise |
| ModelTable.UsagePercent | src/pages/UploadPage.jsx:257 | the share is the model's percentage of all counted requests rounded to the nearest whole number, between 0 and 100 |
| ModelTable.SumCountsBounds | src/pages/UploadPage.jsx:256 | the counts' total is positive and at least every single count |
| ModelTable.FormatRows | src/pages/UploadPage.jsx:254-265 | each display row keeps its entry's requests, shortens its name to 15 characters plus `...`, shows its rounded percentage of the total requests (0..100), takes colour `index % 5`, and costs that percentage of a positive total cost (between zero and it) or 2.3 per percent otherwise |
| ModelTable.ModelsTable | src/pages/UploadPage.jsx:250-270 | the mock table when no model is counted; otherwise min(5, n) rows, each from a counted model, with descending requests, usage equal to the rounded percentage of all counted requests, cost as that share of the total cost (or 2.3 per percent), and cycling colours |
| ModelTable.TopWithinTotal | src/pages/UploadPage.jsx:250-257 | every kept entry is a table entry whose count is at most the positive total |
| ModelTable.MockModelsShape | src/pages/UploadPage.jsx:266-270 | the mock table obeys the same order, bounds and colours as a computed one |
| Analyze.TotalSpent | src/pages/UploadPage.jsx:272 | a positive cost total shows within half a cent, and anything else shows the 229 fallback |
| Analyze.TotalRequests | src/pages/UploadPage.jsx:273 | the number of rows, or the 1250 fallback exactly when there are none |
| Analyze.Recommendations | src/pages/UploadPage.jsx:280-305 | there are always four recommendations, each saving its fixed share of the spend, in descending non-negative order |
| Analyze.SavingsDescending | src/pages/UploadPage.jsx:284-302 | the rounded 20/12/10/6 percent savings of a non-negative spend are descending and non-negative |
| Analyze.WeeklyProfile | src/pages/UploadPage.jsx:306-314 | seven days, Monday to Sunday, each the totals times that day's share |
| Analyze.UnrollDays | src/pages/UploadPage.jsx:306-314 | a seven-day profile's totals are the sums of its seven days |
| Analyze.WeeklyProfileAddsUp | src/pages/UploadPage.jsx:306-314 | the days' requests add up to the total within 3, and their costs to the spend within 3.5 |
| Analyze.PotentialSavingsMatchesRecommendations | src/pages/UploadPage.jsx:284-315 | the potential savings are the four recommendations' savings added up, within 2 |
| Analyze.AnalyzeData | src/pages/UploadPage.jsx:197-317 | file count, fallbacks, a models table of at most five descending rows, the four recommendations computed from the spend, the seven-day profile computed from the totals, and potential savings of 48% of the spend rounded |
| Analyze.UsageEmptyIffNoModels | src/pages/UploadPage.jsx:250 | the count table is empty exactly when no row names a model |
| Analyze.LookupFinds | src/pages/UploadPage.jsx:233 | a key's stored count is an entry of the table |
| Analyze.ModelsShowTopModels | src/pages/UploadPage.jsx:250-265 | for any file count, the models table shows the five busiest entries of the sorted table, in order, each with its rounded share of the counted requests and that share of the total cost |
| Analyze.ListedModelsAreCounted | src/pages/UploadPage.jsx:250-265 | for any file count, every listed model is named by some row and is listed with exactly the number of rows naming it |
| Analyze.UnlistedModelsAreNoBusier | src/pages/UploadPage.jsx:250-265 | for any file count, a counted model left off the list has no more requests than any listed one |
| Analyze.DroppedEntryNoBusier | src/pages/UploadPage.jsx:252-253 | an entry left out of the top slice has no more requests than any kept entry |
| Analyze.LookupIsEntry | src/pages/UploadPage.jsx:233 | looking up an entry's name yields that entry's count |
| Upload.CsvOnly | src/pages/UploadPage.jsx:71-73 | keeps exactly the files named `*.csv` or typed `text/csv` |
| Upload.NewOnly | src/pages/UploadPage.jsx:84-85 | the filter never adds files |
| Upload.NewOnlyMembers | src/pages/UploadPage.jsx:84-85 | a file survives the filter exactly when its path is not listed yet |
| Upload.ProcessFiles | src/pages/UploadPage.jsx:70-90 | with no CSV file only the error is set; otherwise the error clears, the CSV files are announced, old files stay in front, and exactly the new CSV files are appended |
| Upload.CsvOnlyAppend | src/pages/UploadPage.jsx:71-73 | filtering a batch filters its parts in order |
| Upload.NewOnlyAppend | src/pages/UploadPage.jsx:85 | the new-file filter distributes over concatenation |
| Upload.IntakeKeepsBatchOrder | src/pages/UploadPage.jsx:83-87 | files are appended in batch order |
| Upload.IntakeIdempotent | src/pages/UploadPage.jsx:83-87 | taking in the same batch twice appends nothing the second time |
| Upload.NewOnlyOfKnownKeys | src/pages/UploadPage.jsx:84-85 | files whose paths are all listed add nothing |
| Upload.IntakeKeepsDuplicatesWithinBatch | src/pages/UploadPage.jsx:84-86 | files are checked only against the old list, so one path twice in a batch is appended twice |
| Upload.IntakeKeepsKeysDistinct | src/pages/UploadPage.jsx:83-87 | the list keeps distinct paths as long as no batch repeats a path |
| Upload.NewOnlyKeepsDistinct | src/pages/UploadPage.jsx:85 | filtering keeps distinct paths distinct |
| Upload.RemoveFile | src/pages/UploadPage.jsx:147-149 | removes exactly the file at the index and keeps the others in order; an index out of range changes nothing |
| Upload.IsValidRow | src/pages/UploadPage.jsx:172-174 | a kept row has cells, and a row whose first cell has text is kept |
| Upload.IsValidRowMeans | src/pages/UploadPage.jsx:172-174 | a row is kept exactly when some cell is not all white space |
| Upload.ValidRows | src/pages/UploadPage.jsx:172-174 | the row filter never adds rows |
| Upload.ValidRowsMembers | src/pages/UploadPage.jsx:172-174 | keeps exactly the rows with some text |
| Upload.ValidRowsAppend | src/pages/UploadPage.jsx:172-175 | filtering distributes over concatenation, so kept rows stay in file order with their repetitions |
| Upload.AllValidRows | src/pages/UploadPage.jsx:167-183 | no files give no rows; when all rows are gathered every file parsed |
| Upload.AllValidRowsAreValid | src/pages/UploadPage.jsx:172-175 | every gathered row holds some text |
| Upload.AllValidRowsFailure | src/pages/UploadPage.jsx:167-183 | parsing all files fails exactly when some file fails to parse |
| Upload.Progress | src/pages/UploadPage.jsx:177 | progress is the share of files done as a percentage rounded to the nearest whole number, between 0 and 100, and 100 once every file is done |
| Upload.ProgressMonotone | src/pages/UploadPage.jsx:177 | progress never goes back as more files finish |
| Upload.ParsedStep | src/pages/UploadPage.jsx:172-176 | a parsed file's kept rows are appended after those of the files before it |
| Upload.ParseAll | src/pages/UploadPage.jsx:164-183 | the loop yields the kept rows of all files, or stops at the first file that fails to parse, with one progress value per parsed file |
| Upload.HandleAnalyze | src/pages/UploadPage.jsx:156-194 | nothing happens with no files; the first file that fails to parse stops the action with the error; otherwise all kept rows are analysed; progress steps are non-decreasing and end at 100 |
| Upload.FailureStops | src/pages/UploadPage.jsx:168-191 | one failing file makes the whole action fail |
| Upload.ProgressSteps | src/pages/UploadPage.jsx:177 | the reported progress values never decrease |
| Story.ResolveAnalysis | src/pages/StoryDashboard.jsx:105-131 | the analysis handed in; with none, the default: 3 models, 3 recommendations, 7 weekdays, no extended thinking, no period, 229 spent over 1250 requests |
| Story.ReduceBusiest | src/pages/StoryDashboard.jsx:135-137 | the reduction yields its start or one of the days, with at least as many requests as any of them |
| Story.BusiestDay | src/pages/StoryDashboard.jsx:135-137 | a day of the profile with the most requests, present exactly when the profile is non-empty |
| Story.BusiestDayIsFirstBusiest | src/pages/StoryDashboard.jsx:135-137 | ties go to the earliest day: the result is the first day with the most requests |
| Story.FirstBusiestExists | src/pages/StoryDashboard.jsx:135-137 | every non-empty profile has a first busiest day |
| Story.UnitDays | src/pages/StoryDashboard.jsx:141-145 | a unit lasts 1, 7 or 30 days: 1 exactly for `day`/`days`, 7 exactly for `week`/`weeks`, 30 for anything else |
| Story.DaysInPeriod | src/pages/StoryDashboard.jsx:140-146 | seven without a non-zero period; otherwise the value scaled by its unit; never zero |
| Story.PerDay | src/pages/StoryDashboard.jsx:148-149 | the rounded per-day amount times the days is within half a day of the total |
| Story.AvgPerDay | src/pages/StoryDashboard.jsx:148 | spending per day is the total over the period's days rounded to the nearest whole number, over seven days without a period |
| Story.RequestsPerDay | src/pages/StoryDashboard.jsx:149 | requests per day are the total over the period's days rounded to the nearest whole number, over seven days without a period |
| Story.OneWeekIsTheDefault | src/pages/StoryDashboard.jsx:140-149 | a one-week period gives the same averages as no period |
| Story.DefaultAverages | src/pages/StoryDashboard.jsx:105-149 | the default analysis averages 33 spent and 179 requests per day |
| Story.RecommendationSlidesOf | src/pages/StoryDashboard.jsx:170-172 | one slide per recommendation, in order, numbered from zero |
| Story.Slides | src/pages/StoryDashboard.jsx:158-176 | five opening slides, the thinking slide exactly when thinking was used, the first three recommendations numbered 0..k-1, and the summary last; 6 + thinking + min(3, recs) slides |
| Story.AnalyzedStorySlides | src/pages/StoryDashboard.jsx:158-176 | a fresh analysis yields nine slides with three recommendation slides and no thinking slide |
| Story.DefaultStory | src/pages/StoryDashboard.jsx:105-137 | the default analysis yields nine slides, seven weekdays in order, and Thursday as the busiest day |
| Story.ScrollOffset | src/pages/StoryDashboard.jsx:195-199 | scrolling to a slide scrolls to a non-negative offset |
| Story.CurrentSlide | src/pages/StoryDashboard.jsx:183-187 | the selected slide is the nearest one when that exists, and the last one when the nearest is past it |
| Story.ScrollRoundTrip | src/pages/StoryDashboard.jsx:183-199 | scrolling to a slide selects that slide |
| Story.CurrentSlideMonotone | src/pages/StoryDashboard.jsx:183-187 | scrolling further down never selects an earlier slide |
| Savings.Collect | src/pages/StoryDashboard.jsx:203-209 | collecting non-negative savings never lowers the total |
| Savings.OfferedSavings | src/pages/StoryDashboard.jsx:170-172 | the savings offered are those of the first three recommendations, in order |
| Savings.AsWrittenIsCollected | src/pages/StoryDashboard.jsx:412 | with positive savings the page counts the first `total / savings` slides as collected, whoever was clicked; with no savings every slide counts as collected |
| Savings.AsWrittenRun | src/pages/StoryDashboard.jsx:203-209 | the page's running total starts at zero and stays non-negative with non-negative savings |
| Savings.AsWrittenClick | src/pages/StoryDashboard.jsx:412-436 | a click collects only when the page's test says the recommendation is not collected |
| Savings.AsWrittenRunMonotone | src/pages/StoryDashboard.jsx:203-209 | with non-negative savings the page's running total never goes down |
| Savings.AsWrittenShowsUnclickedAsCollected | src/pages/StoryDashboard.jsx:412-436 | with the default savings, collecting #1 and #2 makes #3 show as collected without a click, and a click on #3 is then refused, so its 22 is never collected |
| Savings.AsWrittenCollectsTwice | src/pages/StoryDashboard.jsx:412-436 | with the default savings, #2 stays collectable after its click and is counted twice |
| Savings.EmptyWallet | src/pages/StoryDashboard.jsx:101 | nothing is collected at the start |
| Savings.Click | src/pages/StoryDashboard.jsx:436 | a click marks its recommendation collected and no other |
| Savings.Run | src/pages/StoryDashboard.jsx:436 | the wallet tracks every offered recommendation |
| Savings.CollectedIffClicked | src/pages/StoryDashboard.jsx:412 | corrected: a recommendation shows as collected exactly when it was clicked |
| Savings.ClickAddsSavings | src/pages/StoryDashboard.jsx:203-209 | corrected: a click on an uncollected recommendation adds exactly its savings, and a repeat click adds nothing |
| Savings.CollectedWithinOffered | src/pages/StoryDashboard.jsx:412 | corrected: with non-negative savings the total lies between zero and the sum of all offered savings |
| Savings.RunTotalMonotone | src/pages/StoryDashboard.jsx:203-209 | corrected: the collected total never goes down |
| Savings.WalletFixesCounterexamples | src/pages/StoryDashboard.jsx:412-436 | corrected: the clicks that fool the page's test leave #3 uncollected and count #2 once |
| Savings.SummaryAmount | src/pages/StoryDashboard.jsx:476 | the summary shows the collected total once positive, the potential savings before, and never zero while the potential savings are positive |
| Savings.SummaryBeforeCollecting | src/pages/StoryDashboard.jsx:476 | before any click the summary shows the potential savings |
| Savings.NothingCollected | src/pages/StoryDashboard.jsx:101 | an empty wallet holds nothing |

## Left out

- Folder traversal, the drag-and-drop and file-picker handlers, and Papa Parse itself are left out because they are asynchronous browser and third-party code. A parsed file is a parameter of `Upload.HandleAnalyze` that yields its rows or fails.
- `parseFloat` is a parameter; its parsing rules are not modelled.
- The token column and `parseInt` are left out because `totalTokens` is computed but never returned.
- `toLowerCase` is modelled on ASCII letters only. Other letters are left unchanged.
- String lengths count code points, not UTF-16 units. So a name with characters outside the Basic Multilingual Plane may be cut at a different place than in a browser.
- Aggregator.Bump: every model name is a plain key. In the page, `modelUsage` is an ordinary object, so a model named `constructor` or `toString` starts from an inherited function and is stored as a string ending in `1`, and a model named `__proto__` is never stored. Such names are not modelled.
- JavaScript objects list integer-like keys (such as a model named `"4"`) before other keys. The count table keeps plain insertion order.
- Numbers are exact. IEEE-754 rounding, `NaN` and `Infinity` are left out, and so is a `timePeriod.value` of `NaN`, which the page treats as missing.
- Analyze.TotalSpent: rounding to cents is stated to within half a cent, not as the exact floating-point result.
- Upload.HandleAnalyze: the files are parsed one after another, as the page awaits each file in turn. A failure is reported after the failing file, and no further progress is recorded.
- Story.CurrentSlide: the window height is assumed positive. A zero height would make the page divide by zero.
- Story.ScrollOffset: the window height is assumed positive as well. The offset `index * window.innerHeight` itself needs no such assumption.
- Story.BusiestDay: an empty weekly profile gives `None`. On the page the reduction yields `undefined` and rendering then fails. Every analysis the model builds has seven days.
- `clearAllFiles` is left out because it only empties the list.
- The PDF export, local-storage persistence, timers, animations, count-up effects, charts and slide id strings are left out because they are presentation or I/O.
- The older copy of the upload page, whose analysis is a hard-coded object, is left out.
- The period label and date range are left out because they are display formatting only.

## Findings

| source | as written | input that shows it | evidently intended | confidence | as-written member | corrected member |
|---|---|---|---|---|---|---|
| src/pages/StoryDashboard.jsx:412 | a recommendation counts as collected when the running total is at least `(index + 1) * savings` | default savings 45, 28, 22: collect #1 and #2, and the total 73 ≥ 3 × 22 makes #3 show collected, never clicked; or collect #2 first, and 28 < 2 × 28 leaves it collectable, so a second click makes 56 | each recommendation is collected exactly when its button was clicked, once, and the total is the sum of the collected savings | not executed | Savings.AsWrittenShowsUnclickedAsCollected | Savings.CollectedIffClicked |
| src/pages/StoryDashboard.jsx:436 | the button is disabled by the same total-based test, so a collected recommendation can be collected again | default savings: clicking #2 twice gives 56 | a second click on a collected recommendation adds nothing | not executed | Savings.AsWrittenCollectsTwice | Savings.ClickAddsSavings |

=== FILE: aggregator.dfy ===
/**
  The row pass of `analyzeData`: every row adds its parsed cost to the total
  cost and, when it names a model, one request to that model's count.
 */
module Aggregator {
  import opened Basics
  import opened ColumnResolver

  /**
    `parseFloat` as the model sees it: a number, or `None` where the page
    gets `NaN`. It is a parameter because its parsing rules are not modelled.
   */
  type ParseFloat = string -> Option<real>

  // ---------------------------------------------------------------------
  // Total cost
  // ---------------------------------------------------------------------

  /**
    What one row adds to the total cost: its resolved cost cell when that
    parses as a number (negative numbers included), and nothing otherwise.
   */
  function CostOf(row: Row, parse: ParseFloat): (r: real)
    ensures HasCost(row, parse) ==> parse(FindColumn(row, CostColumns).value) == Some(r)
    ensures !HasCost(row, parse) ==> r == 0.0
  {
    match FindColumn(row, CostColumns)
    case None => 0.0
    case Some(v) =>
      match parse(v)
      case Some(c) => c
      case None => 0.0
  }

  /** Whether the row's cost cell resolves and parses. */
  predicate HasCost(row: Row, parse: ParseFloat)
  {
    match FindColumn(row, CostColumns)
    case None => false
    case Some(v) => parse(v).Some?
  }

  /** `totalCost`: the costs of the rows, added in row order. */
  function TotalCost(data: seq<Row>, parse: ParseFloat): (r: real)
    ensures |data| == 0 ==> r == 0.0
    ensures |data| == 1 ==> r == CostOf(data[0], parse)
    ensures (forall i :: 0 <= i < |data| ==> !HasCost(data[i], parse)) ==> r == 0.0
    ensures (forall i :: 0 <= i < |data| ==> CostOf(data[i], parse) >= 0.0) ==> r >= 0.0
  {
    if |data| == 0 then 0.0
    else TotalCost(data[..|data| - 1], parse) + CostOf(data[|data| - 1], parse)
  }

  /** The total over concatenated files is the sum of the per-file totals. */
  lemma {:induction false} TotalCostAppend(a: seq<Row>, b: seq<Row>, parse: ParseFloat)
    ensures TotalCost(a + b, parse) == TotalCost(a, parse) + TotalCost(b, parse)
    decreases |b|
  {
    if |b| > 0 {
      var b' := b[..|b| - 1];
      assert (a + b)[..|a + b| - 1] == a + b';
      assert (a + b)[|a + b| - 1] == b[|b| - 1];
      TotalCostAppend(a, b', parse);
    } else {
      assert a + b == a;
    }
  }

  /** A negative parsed cost is added as it is, so it lowers the total. */
  lemma NegativeCostLowersTotal(data: seq<Row>, row: Row, parse: ParseFloat)
    requires CostOf(row, parse) < 0.0
    ensures TotalCost(data + [row], parse) < TotalCost(data, parse)
  {
    assert (data + [row])[..|data + [row]| - 1] == data;
  }

  // ---------------------------------------------------------------------
  // Requests per model
  // ---------------------------------------------------------------------

  /** One entry of `modelUsage`: a model name and its number of requests. */
  datatype ModelCount = ModelCount(name: string, count: nat)

  /**
    The model a row is counted under: its resolved model cell trimmed, when
    that is not blank. Names are compared exactly, so letter case matters.
   */
  function ModelOf(row: Row): (r: Option<string>)
    ensures r.Some? ==> r.value != ""
    ensures r.Some? <==> FindColumn(row, ModelColumns).Some? && !AllSpace(FindColumn(row, ModelColumns).value)
    ensures r.Some? ==> r.value == Trim(FindColumn(row, ModelColumns).value)
  {
    match FindColumn(row, ModelColumns)
    case None => None
    case Some(v) =>
      var m := Trim(v);
      if m != "" then Some(m) else None
  }

  /** `modelUsage[model] = (modelUsage[model] || 0) + 1` on an insertion-ordered table. */
  function Bump(usage: seq<ModelCount>, m: string): (r: seq<ModelCount>)
    ensures |usage| <= |r| <= |usage| + 1
    ensures |r| > 0
  {
    if |usage| == 0 then [ModelCount(m, 1)]
    else if usage[0].name == m then [ModelCount(m, usage[0].count + 1)] + usage[1..]
    else [usage[0]] + Bump(usage[1..], m)
  }

  /** `modelUsage` after the row pass, its entries in order of first appearance. */
  function ModelUsage(data: seq<Row>): (r: seq<ModelCount>)
    ensures |r| <= |data|
    ensures forall i :: 0 <= i < |r| ==> r[i].name != "" && r[i].count >= 1
  {
    if |data| == 0 then []
    else
      var u := ModelUsage(data[..|data| - 1]);
      match ModelOf(data[|data| - 1])
      case Some(m) =>
        BumpShape(u, m);
        Bump(u, m)
      case None => u
  }

  /** The number of rows counted under model `m`. */
  function CountOf(data: seq<Row>, m: string): nat
  {
    if |data| == 0 then 0
    else CountOf(data[..|data| - 1], m) + (if ModelOf(data[|data| - 1]) == Some(m) then 1 else 0)
  }

  /** The number of rows that name a model at all. */
  function RowsWithModel(data: seq<Row>): nat
  {
    if |data| == 0 then 0
    else RowsWithModel(data[..|data| - 1]) + (if ModelOf(data[|data| - 1]).Some? then 1 else 0)
  }

  /** The count stored for `m`, or 0 when `m` is not a key. */
  function Lookup(usage: seq<ModelCount>, m: string): nat
  {
    if |usage| == 0 then 0
    else if usage[0].name == m then usage[0].count
    else Lookup(usage[1..], m)
  }

  function SumCounts(usage: seq<ModelCount>): nat
  {
    if |usage| == 0 then 0 else usage[0].count + SumCounts(usage[1..])
  }

  predicate HasKey(usage: seq<ModelCount>, m: string)
  {
    exists i :: 0 <= i < |usage| && usage[i].name == m
  }

  /** A table as a JavaScript object yields it: distinct keys, every count at least one. */
  predicate WellFormed(usage: seq<ModelCount>)
  {
    && (forall i, j :: 0 <= i < j < |usage| ==> usage[i].name != usage[j].name)
    && (forall i :: 0 <= i < |usage| ==> usage[i].count >= 1)
  }

  lemma {:induction false} BumpLookup(usage: seq<ModelCount>, m: string, k: string)
    ensures Lookup(Bump(usage, m), k) == Lookup(usage, k) + (if k == m then 1 else 0)
    decreases |usage|
  {
    if |usage| > 0 && usage[0].name != m {
      BumpLookup(usage[1..], m, k);
    }
  }

  lemma {:induction false} BumpSum(usage: seq<ModelCount>, m: string)
    ensures SumCounts(Bump(usage, m)) == SumCounts(usage) + 1
    decreases |usage|
  {
    if |usage| > 0 && usage[0].name != m {
      BumpSum(usage[1..], m);
    }
  }

  /** Existing entries keep their positions; a new model is appended with count one. */
  lemma {:induction false} BumpShape(usage: seq<ModelCount>, m: string)
    ensures |usage| <= |Bump(usage, m)| <= |usage| + 1
    ensures forall i :: 0 <= i < |usage| ==> Bump(usage, m)[i].name == usage[i].name
    ensures forall i :: 0 <= i < |usage| ==> Bump(usage, m)[i].count >= usage[i].count
    ensures HasKey(usage, m) ==> |Bump(usage, m)| == |usage|
    ensures !HasKey(usage, m) ==> Bump(usage, m) == usage + [ModelCount(m, 1)]
    decreases |usage|
  {
    if |usage| > 0 && usage[0].name != m {
      var tail := usage[1..];
      BumpShape(tail, m);
      assert Bump(usage, m) == [usage[0]] + Bump(tail, m);
      if HasKey(usage, m) {
        var i :| 0 <= i < |usage| && usage[i].name == m;
        assert tail[i - 1].name == m;
      }
    }
  }

  lemma BumpKeys(usage: seq<ModelCount>, m: string, k: string)
    ensures HasKey(Bump(usage, m), k) <==> HasKey(usage, k) || k == m
  {
    var r := Bump(usage, m);
    BumpShape(usage, m);
    if HasKey(usage, k) {
      var i :| 0 <= i < |usage| && usage[i].name == k;
      assert r[i].name == k;
    }
    if k == m && !HasKey(usage, m) {
      assert r[|usage|].name == m;
    }
    if HasKey(r, k) && !HasKey(usage, k) {
      var i :| 0 <= i < |r| && r[i].name == k;
      if i < |usage| {
        assert usage[i].name == k;
      } else {
        assert k == m;
      }
    }
  }

  lemma BumpWellFormed(usage: seq<ModelCount>, m: string)
    requires WellFormed(usage)
    ensures WellFormed(Bump(usage, m))
  {
    var r := Bump(usage, m);
    BumpShape(usage, m);
    if !HasKey(usage, m) {
      forall i, j | 0 <= i < j < |r| ensures r[i].name != r[j].name {
        if j == |usage| {
          assert usage[i].name != m;
        }
      }
    }
  }

  /**
    The row pass counts exactly: every key's count is the number of rows
    naming that model, the keys are exactly the models named, and the counts
    add up to the number of rows naming a model, never more than the rows.
   */
  lemma {:induction false} ModelUsageCounts(data: seq<Row>)
    ensures WellFormed(ModelUsage(data))
    ensures forall m :: Lookup(ModelUsage(data), m) == CountOf(data, m)
    ensures forall m :: HasKey(ModelUsage(data), m) <==> CountOf(data, m) > 0
    ensures SumCounts(ModelUsage(data)) == RowsWithModel(data) <= |data|
  {
    if |data| > 0 {
      var prefix := data[..|data| - 1];
      ModelUsageCounts(prefix);
      var u := ModelUsage(prefix);
      match ModelOf(data[|data| - 1])
      case Some(m) =>
        BumpWellFormed(u, m);
        BumpSum(u, m);
        forall k ensures Lookup(ModelUsage(data), k) == CountOf(data, k) {
          BumpLookup(u, m, k);
        }
        forall k ensures HasKey(ModelUsage(data), k) <==> CountOf(data, k) > 0 {
          BumpKeys(u, m, k);
          UsageKeyIffPositive(u, k);
        }
      case None =>
    }
  }

  lemma {:induction false} UsageKeyIffPositive(usage: seq<ModelCount>, k: string)
    requires WellFormed(usage)
    ensures HasKey(usage, k) <==> Lookup(usage, k) > 0
    decreases |usage|
  {
    if |usage| > 0 {
      var tail := usage[1..];
      assert WellFormed(tail);
      UsageKeyIffPositive(tail, k);
      if HasKey(tail, k) {
        var i :| 0 <= i < |tail| && tail[i].name == k;
        assert usage[i + 1].name == k;
      }
      if HasKey(usage, k) && usage[0].name != k {
        var i :| 0 <= i < |usage| && usage[i].name == k;
        assert tail[i - 1].name == k;
      }
    }
  }

  /** Entries keep their positions as rows arrive: later rows only append new models. */
  lemma {:induction false} ModelUsageFirstSeenOrder(data: seq<Row>, k: nat)
    requires k <= |data|
    ensures |ModelUsage(data[..k])| <= |ModelUsage(data)|
    ensures forall i :: 0 <= i < |ModelUsage(data[..k])| ==> ModelUsage(data[..k])[i].name == ModelUsage(data)[i].name
    decreases |data| - k
  {
    if k < |data| {
      var prefix := data[..|data| - 1];
      assert prefix[..k] == data[..k];
      ModelUsageFirstSeenOrder(prefix, k);
      match ModelOf(data[|data| - 1])
      case Some(m) => BumpShape(ModelUsage(prefix), m);
      case None =>
    } else {
      assert data[..k] == data;
    }
  }
}

=== FILE: analyze.dfy ===
/**
  `analyzeData`: the result builder of the upload page. From the row pass it
  takes the total cost and the per-model counts; everything else in the
  result is derived from those two totals by fixed ratios, or is a fixed
  fallback when the data has nothing to offer.
 */
module Analyze {
  import opened Basics
  import opened ColumnResolver
  import opened Aggregator
  import opened ModelTable
  import opened Report

  /** Shown as the total spent when the rows yield no positive total cost. */
  const FallbackSpent: real := 229.0

  /** Shown as the number of requests when there are no rows. */
  const FallbackRequests: nat := 1250

  /** The share of the total spent each of the four recommendations claims, in order. */
  const SavingsRatios: seq<real> := [0.20, 0.12, 0.10, 0.06]

  /** The share of the total spent claimed as potential savings: the four ratios added up. */
  const PotentialRatio: real := 0.48

  /** Each weekday's share of the requests, Monday first. */
  const RequestShares: seq<real> := [0.15, 0.18, 0.16, 0.19, 0.16, 0.09, 0.07]

  /** Each weekday's share of the spend, Monday first. */
  const CostShares: seq<real> := [0.14, 0.18, 0.15, 0.20, 0.17, 0.09, 0.07]

  /**
    `actualTotalSpent`: the total cost rounded to cents when it is positive,
    the fallback otherwise. A positive total below half a cent shows as 0.
   */
  function TotalSpent(totalCost: real): (r: real)
    ensures r >= 0.0
    ensures totalCost > 0.0 ==> totalCost - 0.005 < r <= totalCost + 0.005
    ensures totalCost <= 0.0 ==> r == FallbackSpent
  {
    if totalCost > 0.0 then Round(totalCost * 100.0) as real / 100.0 else FallbackSpent
  }

  /** `actualRequests`: the number of rows, or the fallback when there are none. */
  function TotalRequests(rows: nat): (r: nat)
    ensures r >= 1
    ensures rows > 0 ==> r == rows
    ensures rows == 0 ==> r == FallbackRequests
  {
    if rows > 0 then rows else FallbackRequests
  }

  /** The four fixed recommendations, each claiming a fixed share of the total spent. */
  function Recommendations(totalSpent: real): (r: seq<Recommendation>)
    ensures |r| == |SavingsRatios| == 4
    ensures forall i :: 0 <= i < |r| ==> r[i].savings == Round(totalSpent * SavingsRatios[i])
    ensures totalSpent >= 0.0 ==> r[0].savings >= r[1].savings >= r[2].savings >= r[3].savings >= 0
    ensures totalSpent >= 0.0 ==> forall i :: 0 <= i < |r| ==> r[i].savings >= 0
  {
    var s := totalSpent;
    SavingsDescending(s);
    [
      Recommendation("Switch to GPT-3.5 for simple tasks",
        "Analysis shows 40% of your GPT-4 queries are simple enough for GPT-3.5",
        Round(s * 0.20), High),
      Recommendation("Batch similar requests",
        "Combine sequential similar queries to reduce API overhead",
        Round(s * 0.12), Medium),
      Recommendation("Cache repeated queries",
        "15% of your queries are identical and could be cached",
        Round(s * 0.10), Medium),
      Recommendation("Optimize prompt length",
        "Reduce average prompt length by removing redundant context",
        Round(s * 0.06), Low)
    ]
  }

  lemma SavingsDescending(s: real)
    ensures s >= 0.0 ==> Round(s * 0.20) >= Round(s * 0.12) >= Round(s * 0.10) >= Round(s * 0.06) >= 0
  {
    if s >= 0.0 {
      RoundMonotone(s * 0.12, s * 0.20);
      RoundMonotone(s * 0.10, s * 0.12);
      RoundMonotone(s * 0.06, s * 0.10);
      RoundMonotone(0.0, s * 0.06);
    }
  }

  function Day(i: nat, requests: int, spent: real): (d: DayUsage)
    requires i < 7
  {
    DayUsage(WeekDays[i], Round(requests as real * RequestShares[i]), Round(spent * CostShares[i]))
  }

  /** The seven-day profile: the totals spread over Mon..Sun by fixed shares. */
  function WeeklyProfile(requests: int, spent: real): (r: seq<DayUsage>)
    ensures |r| == |WeekDays| == 7
    ensures forall i :: 0 <= i < |r| ==> r[i] == Day(i, requests, spent)
    ensures forall i :: 0 <= i < |r| ==> r[i].day == WeekDays[i]
  {
    [Day(0, requests, spent), Day(1, requests, spent), Day(2, requests, spent), Day(3, requests, spent),
     Day(4, requests, spent), Day(5, requests, spent), Day(6, requests, spent)]
  }

  function SumDayRequests(w: seq<DayUsage>): int
  {
    if |w| == 0 then 0 else w[0].requests + SumDayRequests(w[1..])
  }

  function SumDayCosts(w: seq<DayUsage>): int
  {
    if |w| == 0 then 0 else w[0].cost + SumDayCosts(w[1..])
  }

  function SumSavings(recs: seq<Recommendation>): int
  {
    if |recs| == 0 then 0 else recs[0].savings + SumSavings(recs[1..])
  }

  lemma UnrollDays(w: seq<DayUsage>)
    requires |w| == 7
    ensures SumDayRequests(w) == w[0].requests + w[1].requests + w[2].requests + w[3].requests
      + w[4].requests + w[5].requests + w[6].requests
    ensures SumDayCosts(w) == w[0].cost + w[1].cost + w[2].cost + w[3].cost
      + w[4].cost + w[5].cost + w[6].cost
  {
    forall k | 0 <= k < 7
      ensures SumDayRequests(w[k..]) == w[k].requests + SumDayRequests(w[k + 1..])
      ensures SumDayCosts(w[k..]) == w[k].cost + SumDayCosts(w[k + 1..])
    {
      assert w[k..][1..] == w[k + 1..];
    }
    assert w[7..] == [] && w[0..] == w;
  }

  /**
    The shares of each kind add up to one, so the weekly requests add up to
    the total requests, and the weekly costs to the total spent, up to the
    rounding of seven entries.
   */
  lemma WeeklyProfileAddsUp(requests: int, spent: real)
    ensures -3 <= SumDayRequests(WeeklyProfile(requests, spent)) - requests <= 3
    ensures -3.5 < SumDayCosts(WeeklyProfile(requests, spent)) as real - spent <= 3.5
  {
    var w := WeeklyProfile(requests, spent);
    UnrollDays(w);
    var R := requests as real;
    assert forall i :: 0 <= i < 7 ==> w[i] == Day(i, requests, spent);
    assert R * 0.15 + R * 0.18 + R * 0.16 + R * 0.19 + R * 0.16 + R * 0.09 + R * 0.07 == R;
    assert spent * 0.14 + spent * 0.18 + spent * 0.15 + spent * 0.20 + spent * 0.17 + spent * 0.09 + spent * 0.07 == spent;
  }

  /**
    `potentialSavings` is the total spent times the four ratios added up, so
    it is the sum of the four recommendations' savings up to rounding.
   */
  lemma PotentialSavingsMatchesRecommendations(totalSpent: real)
    ensures -2 <= SumSavings(Recommendations(totalSpent)) - Round(totalSpent * PotentialRatio) <= 2
  {
    var r := Recommendations(totalSpent);
    assert r[3..][1..] == [];
    assert r[2..][1..] == r[3..];
    assert r[1..][1..] == r[2..];
    assert SumSavings(r[3..]) == r[3].savings;
    assert SumSavings(r[2..]) == r[2].savings + r[3].savings;
    assert SumSavings(r[1..]) == r[1].savings + r[2].savings + r[3].savings;
    assert SumSavings(r) == r[0].savings + r[1].savings + r[2].savings + r[3].savings;
    var s := totalSpent;
    assert s * 0.20 + s * 0.12 + s * 0.10 + s * 0.06 == s * 0.48;
  }

  /** `analyzeData(data, fileCount)`. */
  function AnalyzeData(data: seq<Row>, fileCount: int, parse: ParseFloat): (r: Analysis)
    ensures r.filesAnalyzed == fileCount
    ensures r.totalRequests == TotalRequests(|data|) >= 1
    ensures r.totalSpent == TotalSpent(TotalCost(data, parse))
    ensures RowsWithModel(data) == 0 ==> r.models == MockModels
    ensures RowsWithModel(data) > 0 ==> 1 <= |r.models| <= TopCount
    ensures forall i, j :: 0 <= i < j < |r.models| ==> r.models[i].requests >= r.models[j].requests
    ensures forall i :: 0 <= i < |r.models| ==> 0 <= r.models[i].usage <= 100
    ensures |r.recommendations| == 4
    ensures forall i :: 0 <= i < 4 ==> 0 <= r.recommendations[i].savings
    ensures |r.weeklyUsage| == 7 && forall i :: 0 <= i < 7 ==> r.weeklyUsage[i].day == WeekDays[i]
    ensures r.recommendations == Recommendations(r.totalSpent)
    ensures r.weeklyUsage == WeeklyProfile(r.totalRequests, r.totalSpent)
    ensures r.potentialSavings == Round(r.totalSpent * PotentialRatio) >= 0
    ensures r.timePeriod.None? && r.extendedThinking.None?
  {
    var totalCost := TotalCost(data, parse);
    var usage := ModelUsage(data);
    ModelUsageCounts(data);
    UsageEmptyIffNoModels(data);
    var spent := TotalSpent(totalCost);
    var requests := TotalRequests(|data|);
    Analysis(
      spent,
      requests,
      fileCount,
      ModelsTable(usage, totalCost),
      Recommendations(spent),
      WeeklyProfile(requests, spent),
      Round(spent * PotentialRatio),
      None,
      None)
  }

  lemma UsageEmptyIffNoModels(data: seq<Row>)
    ensures |ModelUsage(data)| == 0 <==> RowsWithModel(data) == 0
  {
    ModelUsageCounts(data);
    var u := ModelUsage(data);
    if |u| > 0 {
      assert SumCounts(u) == u[0].count + SumCounts(u[1..]);
    }
  }

  lemma {:induction false} LookupFinds(usage: seq<ModelCount>, m: string)
    requires HasKey(usage, m)
    ensures exists i :: 0 <= i < |usage| && usage[i] == ModelCount(m, Lookup(usage, m))
    decreases |usage|
  {
    if usage[0].name != m {
      var i :| 0 <= i < |usage| && usage[i].name == m;
      assert usage[1..][i - 1].name == m;
      LookupFinds(usage[1..], m);
      var j :| 0 <= j < |usage[1..]| && usage[1..][j] == ModelCount(m, Lookup(usage[1..], m));
      assert usage[j + 1] == usage[1..][j];
    }
  }

  /** With some model named, `models` displays the kept entries of the sorted table, in order. */
  lemma ModelsShowTopModels(data: seq<Row>, fileCount: int, parse: ParseFloat)
    requires RowsWithModel(data) > 0
    ensures var models := AnalyzeData(data, fileCount, parse).models;
      var kept := TopModels(ModelUsage(data));
      && |models| == |kept|
      && forall i :: 0 <= i < |models| ==>
           models[i].requests == kept[i].count && models[i].name == DisplayName(kept[i].name)
           && models[i].usage == UsagePercent(kept[i].count, SumCounts(ModelUsage(data)))
           && CostIsShare(models[i], TotalCost(data, parse))
  {
    var usage := ModelUsage(data);
    ModelUsageCounts(data);
    UsageEmptyIffNoModels(data);
    TopWithinTotal(usage);
    assert AnalyzeData(data, fileCount, parse).models == FormatRows(TopModels(usage), SumCounts(usage), TotalCost(data, parse));
  }

  /**
    Every listed model is one the rows name, listed with exactly as many
    requests as there are rows naming it.
   */
  lemma ListedModelsAreCounted(data: seq<Row>, fileCount: int, parse: ParseFloat)
    requires RowsWithModel(data) > 0
    ensures var models := AnalyzeData(data, fileCount, parse).models;
      var kept := TopModels(ModelUsage(data));
      && |models| == |kept|
      && forall i :: 0 <= i < |models| ==>
           CountOf(data, kept[i].name) > 0
           && models[i].requests == CountOf(data, kept[i].name)
           && models[i].name == DisplayName(kept[i].name)
  {
    var usage := ModelUsage(data);
    var kept := TopModels(usage);
    ModelsShowTopModels(data, fileCount, parse);
    ModelUsageCounts(data);
    TopWithinTotal(usage);
    forall i | 0 <= i < |kept|
      ensures CountOf(data, kept[i].name) == kept[i].count > 0
    {
      var j :| 0 <= j < |usage| && usage[j] == kept[i];
      LookupIsEntry(usage, j);
    }
  }

  /** A model the rows name that is not listed has no more requests than any listed one. */
  lemma UnlistedModelsAreNoBusier(data: seq<Row>, fileCount: int, parse: ParseFloat, m: string)
    requires RowsWithModel(data) > 0
    requires CountOf(data, m) > 0
    requires forall t :: t in TopModels(ModelUsage(data)) ==> t.name != m
    ensures forall i :: 0 <= i < |AnalyzeData(data, fileCount, parse).models| ==>
      CountOf(data, m) <= AnalyzeData(data, fileCount, parse).models[i].requests
  {
    var usage := ModelUsage(data);
    ModelsShowTopModels(data, fileCount, parse);
    ModelUsageCounts(data);
    LookupFinds(usage, m);
    DroppedEntryNoBusier(usage, ModelCount(m, Lookup(usage, m)));
  }

  /** An entry the top slice leaves out has no more requests than any kept entry. */
  lemma DroppedEntryNoBusier(usage: seq<ModelCount>, e: ModelCount)
    requires e in usage && e !in TopModels(usage)
    ensures forall i :: 0 <= i < |TopModels(usage)| ==> e.count <= TopModels(usage)[i].count
  {
    var kept := TopModels(usage);
    TopModelsAreBusiest(usage);
    assert e in multiset(usage) - multiset(kept);
    forall i | 0 <= i < |kept| ensures e.count <= kept[i].count {
      assert kept[i] in kept;
    }
  }

  lemma {:induction false} LookupIsEntry(usage: seq<ModelCount>, j: nat)
    requires WellFormed(usage) && j < |usage|
    ensures Lookup(usage, usage[j].name) == usage[j].count
    decreases j
  {
    if j > 0 {
      assert usage[0].name != usage[j].name;
      assert WellFormed(usage[1..]);
      LookupIsEntry(usage[1..], j - 1);
    }
  }
}

=== FILE: basics.dfy ===
/**
  Shared vocabulary for the usage-analysis model: an optional value, the
  rounding of JavaScript's `Math.round` on exact numbers, and the string
  operations the pages use (`toLowerCase`, `trim`, `endsWith`).
 */
module Basics {

  /** A value that may be absent (`null`/`undefined` in the pages). */
  datatype Option<+T> = None | Some(value: T)

  /** `Math.round` on an exact real: the nearest integer, halves going up. */
  function Round(x: real): (r: int)
    ensures x - 0.5 < r as real <= x + 0.5
  {
    (x + 0.5).Floor
  }

  lemma RoundMonotone(x: real, y: real)
    requires x <= y
    ensures Round(x) <= Round(y)
  {
  }

  lemma RoundOfInt(n: int)
    ensures Round(n as real) == n
  {
  }

  function Min(a: int, b: int): int
  {
    if a <= b then a else b
  }

  /** `Array.prototype.filter`: the elements that pass `keep`, in their order. */
  function Filter<T>(s: seq<T>, keep: T -> bool): (r: seq<T>)
    ensures |r| <= |s|
  {
    if |s| == 0 then []
    else (if keep(s[0]) then [s[0]] else []) + Filter(s[1..], keep)
  }

  /** The filter keeps exactly the elements that pass. */
  lemma {:induction false} FilterMembers<T>(s: seq<T>, keep: T -> bool)
    ensures forall x :: x in Filter(s, keep) <==> x in s && keep(x)
    decreases |s|
  {
    if |s| > 0 {
      FilterMembers(s[1..], keep);
      assert s == [s[0]] + s[1..];
    }
  }

  /** The filter distributes over concatenation, so it keeps order and repetitions. */
  lemma {:induction false} FilterAppend<T>(a: seq<T>, b: seq<T>, keep: T -> bool)
    ensures Filter(a + b, keep) == Filter(a, keep) + Filter(b, keep)
    decreases |a|
  {
    if |a| > 0 {
      var h := if keep(a[0]) then [a[0]] else [];
      assert (a + b)[0] == a[0] && (a + b)[1..] == a[1..] + b;
      FilterAppend(a[1..], b, keep);
      assert Filter(a + b, keep) == h + Filter(a[1..] + b, keep);
    } else {
      assert a + b == b;
    }
  }

  // ---------------------------------------------------------------------
  // Characters and strings
  // ---------------------------------------------------------------------

  /** `toLowerCase` on one character; only the ASCII letters are mapped. */
  function LowerChar(c: char): char
  {
    if 'A' <= c <= 'Z' then (c as int + 32) as char else c
  }

  function Lower(s: string): (r: string)
    ensures |r| == |s|
    ensures forall i :: 0 <= i < |s| ==> r[i] == LowerChar(s[i])
  {
    seq(|s|, i requires 0 <= i < |s| => LowerChar(s[i]))
  }

  lemma LowerIdempotent(s: string)
    ensures Lower(Lower(s)) == Lower(s)
  {
  }

  /** The white space and line terminators that `String.prototype.trim` removes. */
  predicate IsSpace(c: char)
  {
    var n := c as int;
    n == 0x09 || n == 0x0A || n == 0x0B || n == 0x0C || n == 0x0D || n == 0x20
    || n == 0xA0 || n == 0x1680 || (0x2000 <= n <= 0x200A)
    || n == 0x2028 || n == 0x2029 || n == 0x202F || n == 0x205F
    || n == 0x3000 || n == 0xFEFF
  }

  predicate AllSpace(s: string)
  {
    forall i :: 0 <= i < |s| ==> IsSpace(s[i])
  }

  /** `trimStart`: the suffix of `s` left after its leading white space. */
  function TrimStart(s: string): (r: string)
    ensures |r| <= |s| && r == s[|s| - |r|..]
    ensures AllSpace(s[..|s| - |r|])
    ensures |r| > 0 ==> !IsSpace(r[0])
    decreases |s|
  {
    if |s| > 0 && IsSpace(s[0]) then
      var t := TrimStart(s[1..]);
      assert s[..|s| - |t|] == [s[0]] + s[1..][..|s| - 1 - |t|];
      t
    else
      s
  }

  /** `trimEnd`: the prefix of `s` left before its trailing white space. */
  function TrimEnd(s: string): (r: string)
    ensures |r| <= |s| && r == s[..|r|]
    ensures AllSpace(s[|r|..])
    ensures |r| > 0 ==> !IsSpace(r[|r| - 1])
    decreases |s|
  {
    if |s| > 0 && IsSpace(s[|s| - 1]) then
      var u := s[..|s| - 1];
      var t := TrimEnd(u);
      assert s[|t|..] == u[|t|..] + [s[|s| - 1]];
      t
    else
      s
  }

  /** `String.prototype.trim`: drops leading and trailing white space. */
  function Trim(s: string): (r: string)
    ensures |r| <= |s|
    ensures |r| > 0 ==> !IsSpace(r[0]) && !IsSpace(r[|r| - 1])
    ensures |r| == 0 <==> AllSpace(s)
  {
    var t := TrimStart(s);
    var r := TrimEnd(t);
    TrimEmptyIffBlank(s);
    assert |r| > 0 ==> r[0] == t[0];
    r
  }

  /** What `Trim` keeps is a middle slice of `s`, with only white space on either side of it. */
  lemma TrimIsMiddle(s: string)
    ensures exists a, b :: 0 <= a <= b <= |s| && Trim(s) == s[a..b] && AllSpace(s[..a]) && AllSpace(s[b..])
  {
    var t := TrimStart(s);
    var r := TrimEnd(t);
    var a := |s| - |t|;
    var b := a + |r|;
    assert r == s[a..b] by {
      assert t == s[a..];
    }
    assert AllSpace(s[b..]) by {
      TrimEndTail(s, t, r);
    }
  }

  lemma TrimEndTail(s: string, t: string, r: string)
    requires |t| <= |s| && t == s[|s| - |t|..]
    requires |r| <= |t| && AllSpace(t[|r|..])
    ensures AllSpace(s[|s| - |t| + |r|..])
  {
    assert s[|s| - |t| + |r|..] == t[|r|..];
  }

  lemma TrimEmptyIffBlank(s: string)
    ensures |TrimEnd(TrimStart(s))| == 0 <==> AllSpace(s)
  {
    var t := TrimStart(s);
    var r := TrimEnd(t);
    if |r| == 0 {
      assert AllSpace(t) by {
        assert t[|r|..] == t;
      }
      assert |t| == 0;
      assert s[..|s| - |t|] == s;
    } else {
      assert t[0] == s[|s| - |t|];
    }
  }

  /** `String.prototype.endsWith`. */
  predicate EndsWith(s: string, suffix: string)
  {
    |suffix| <= |s| && s[|s| - |suffix|..] == suffix
  }
}

=== FILE: column_resolver.dfy ===
/**
  The column resolver of the upload page: a parsed CSV row is a list of
  header/cell entries, and a field (cost, model) is found by trying a list of
  candidate header names, each compared with the headers ignoring case.
 */
module ColumnResolver {
  import opened Basics

  /** One cell of a parsed CSV row: the column header and the cell text. */
  datatype Entry = Entry(header: string, value: string)

  /**
    A parsed row, its entries in the order `Object.keys` lists them. A
    JavaScript object has distinct keys, so the cell of a found header is the
    cell of the entry where it was found.
   */
  type Row = seq<Entry>

  /** Candidate headers for the model name, in the order they are tried. */
  const ModelColumns: seq<string> := ["model", "model_name", "model_id", "engine"]

  /** Candidate headers for the request cost, in the order they are tried. */
  const CostColumns: seq<string> := ["cost", "total_cost", "price", "amount", "usd"]

  predicate HeaderMatches(e: Entry, name: string)
  {
    Lower(e.header) == Lower(name)
  }

  /**
    The position of the first header equal to `name` ignoring case: the
    `keys.find(...)` of the resolver. Headers are compared untrimmed.
   */
  function FirstMatch(row: Row, name: string): (r: Option<nat>)
    ensures r.Some? ==> r.value < |row| && HeaderMatches(row[r.value], name)
    ensures r.Some? ==> forall j :: 0 <= j < r.value ==> !HeaderMatches(row[j], name)
    ensures r.None? <==> forall j :: 0 <= j < |row| ==> !HeaderMatches(row[j], name)
  {
    if |row| == 0 then None
    else if HeaderMatches(row[0], name) then Some(0)
    else match FirstMatch(row[1..], name)
      case None => None
      case Some(k) => Some(k + 1)
  }

  /**
    What trying one candidate yields: the cell under the first matching
    header, provided both the header and the cell are non-empty (truthy).
    A later header that also matches is never looked at.
   */
  function Probe(row: Row, name: string): (r: Option<string>)
    ensures r.Some? ==> r.value != ""
    ensures (forall j :: 0 <= j < |row| ==> !HeaderMatches(row[j], name)) ==> r.None?
  {
    match FirstMatch(row, name)
    case Some(k) => if row[k].header != "" && row[k].value != "" then Some(row[k].value) else None
    case None => None
  }

  /**
    A probe succeeds exactly with the cell of the first matching header,
    when that header and its cell are both non-empty.
   */
  lemma ProbeMeans(row: Row, name: string, k: nat)
    requires k < |row| && HeaderMatches(row[k], name)
    requires forall j :: 0 <= j < k ==> !HeaderMatches(row[j], name)
    ensures Probe(row, name).Some? <==> row[k].header != "" && row[k].value != ""
    ensures Probe(row, name).Some? ==> Probe(row, name).value == row[k].value
  {
    assert FirstMatch(row, name) == Some(k);
  }

  /**
    `findColumn`: the cell for the earliest candidate, in list order, whose
    probe succeeds; `None` (the source's `null`) when none does.
   */
  function FindColumn(row: Row, names: seq<string>): (r: Option<string>)
    ensures r.Some? ==> r.value != ""
    ensures r.Some? ==>
      exists i :: 0 <= i < |names| && Probe(row, names[i]) == r
        && forall j :: 0 <= j < i ==> Probe(row, names[j]).None?
    ensures r.None? <==> forall i :: 0 <= i < |names| ==> Probe(row, names[i]).None?
  {
    if |names| == 0 then None
    else match Probe(row, names[0])
      case Some(v) => Some(v)
      case None =>
        var r := FindColumn(row, names[1..]);
        assert forall i :: 0 < i < |names| ==> names[i] == names[1..][i - 1];
        r
  }

  /** The earliest candidate whose probe succeeds is the one whose cell is returned. */
  lemma {:induction false} FindColumnEarliest(row: Row, names: seq<string>, i: nat)
    requires i < |names| && Probe(row, names[i]).Some?
    requires forall j :: 0 <= j < i ==> Probe(row, names[j]).None?
    ensures FindColumn(row, names) == Probe(row, names[i])
    decreases i
  {
    if i > 0 {
      assert Probe(row, names[0]).None?;
      assert forall j :: 0 <= j < i - 1 ==> names[1..][j] == names[j + 1];
      FindColumnEarliest(row, names[1..], i - 1);
    }
  }

  /** Candidates that differ only in letter case resolve identically. */
  lemma {:induction false} CandidateCaseIrrelevant(row: Row, names: seq<string>, names': seq<string>)
    requires |names| == |names'|
    requires forall i :: 0 <= i < |names| ==> Lower(names[i]) == Lower(names'[i])
    ensures FindColumn(row, names) == FindColumn(row, names')
    decreases |names|
  {
    if |names| > 0 {
      ProbeCaseIrrelevant(row, row, names[0], names'[0]);
      CandidateCaseIrrelevant(row, names[1..], names'[1..]);
    }
  }

  /** Rows whose headers differ only in letter case resolve identically. */
  lemma {:induction false} HeaderCaseIrrelevant(row: Row, row': Row, names: seq<string>)
    requires |row| == |row'|
    requires forall k :: 0 <= k < |row| ==> Lower(row[k].header) == Lower(row'[k].header) && row[k].value == row'[k].value
    ensures FindColumn(row, names) == FindColumn(row', names)
    decreases |names|
  {
    if |names| > 0 {
      ProbeCaseIrrelevant(row, row', names[0], names[0]);
      HeaderCaseIrrelevant(row, row', names[1..]);
    }
  }

  lemma ProbeCaseIrrelevant(row: Row, row': Row, name: string, name': string)
    requires |row| == |row'|
    requires forall k :: 0 <= k < |row| ==> Lower(row[k].header) == Lower(row'[k].header) && row[k].value == row'[k].value
    requires Lower(name) == Lower(name')
    ensures Probe(row, name) == Probe(row', name')
  {
    var m, m' := FirstMatch(row, name), FirstMatch(row', name');
    assert forall k :: 0 <= k < |row| ==> (HeaderMatches(row[k], name) <==> HeaderMatches(row'[k], name'));
    if m.Some? && m'.Some? {
      assert m.value == m'.value;
      assert |Lower(row[m.value].header)| == |row[m.value].header|;
      assert |Lower(row'[m.value].header)| == |row'[m.value].header|;
    }
  }

  /** Headers are not trimmed: a padded header misses every cost candidate. */
  lemma PaddedHeaderIsMissed()
    ensures FindColumn([Entry(" Total_Cost ", "3.50")], CostColumns) == None
  {
    var row := [Entry(" Total_Cost ", "3.50")];
    assert |Lower(row[0].header)| == 12;
    forall i | 0 <= i < |CostColumns|
      ensures Probe(row, CostColumns[i]).None?
    {
      assert |Lower(CostColumns[i])| < 12;
    }
  }
}

=== FILE: model_table.dfy ===
/**
  The `models` table of the analysis: the per-model counts sorted by number
  of requests (a stable sort, most requests first), cut to five entries,
  and dressed for display with a share, a cost, a short name and a colour.
 */
module ModelTable {
  import opened Basics
  import opened Aggregator

  /** One row of the `models` table. */
  datatype ModelRow = ModelRow(name: string, usage: int, cost: real, color: string, requests: nat)

  /** The palette the rows take their colours from, in order. */
  const Colors: seq<string> := ["#F97CF5", "#A855F7", "#8B5CF6", "#6366F1", "#3B82F6"]

  /** The table shown when no row names a model. */
  const MockModels: seq<ModelRow> := [
    ModelRow("GPT-4", 45, 103.05, "#F97CF5", 562),
    ModelRow("GPT-3.5", 30, 68.70, "#A855F7", 375),
    ModelRow("Claude", 25, 57.25, "#8B5CF6", 313)
  ]

  /** At most this many models are listed. */
  const TopCount: nat := 5

  /** Names longer than this are cut and marked with an ellipsis. */
  const NameLimit: nat := 15

  // ---------------------------------------------------------------------
  // Stable sort, most requests first
  // ---------------------------------------------------------------------

  predicate Descending(s: seq<ModelCount>)
  {
    forall i, j :: 0 <= i < j < |s| ==> s[i].count >= s[j].count
  }

  /** The entries with exactly `c` requests, in their order in `s`. */
  function WithCount(s: seq<ModelCount>, c: nat): seq<ModelCount>
  {
    if |s| == 0 then []
    else (if s[0].count == c then [s[0]] else []) + WithCount(s[1..], c)
  }

  /**
    Puts `x` before the first entry with no more requests than it has, so
    that `x`, which came first in the input, stays ahead of its ties.
   */
  function Insert(x: ModelCount, s: seq<ModelCount>): (r: seq<ModelCount>)
    ensures |r| == |s| + 1
  {
    if |s| == 0 || x.count >= s[0].count then [x] + s
    else [s[0]] + Insert(x, s[1..])
  }

  /**
    `r` is `s` with `x` placed at position `k`: after the entries with more
    requests than it has and before the first one with no more.
   */
  predicate PlacedAt(x: ModelCount, s: seq<ModelCount>, r: seq<ModelCount>, k: nat)
  {
    && k <= |s|
    && r == s[..k] + [x] + s[k..]
    && (forall j :: 0 <= j < k ==> s[j].count > x.count)
    && (k < |s| ==> x.count >= s[k].count)
  }

  /** `x` lands in exactly that place, and everything else keeps its order. */
  lemma {:induction false} InsertPlacement(x: ModelCount, s: seq<ModelCount>)
    ensures exists k :: PlacedAt(x, s, Insert(x, s), k)
    decreases |s|
  {
    if |s| == 0 || x.count >= s[0].count {
      assert PlacedAt(x, s, Insert(x, s), 0) by {
        assert s[..0] == [] && s[0..] == s;
      }
    } else {
      var t := s[1..];
      InsertPlacement(x, t);
      var k: nat :| PlacedAt(x, t, Insert(x, t), k);
      PlacedAfter(x, s[0], t, Insert(x, t), k);
      assert s == [s[0]] + t && Insert(x, s) == [s[0]] + Insert(x, t);
      assert PlacedAt(x, s, Insert(x, s), k + 1);
    }
  }

  /** An entry with more requests than `x` in front moves `x`'s place one back. */
  lemma PlacedAfter(x: ModelCount, y: ModelCount, t: seq<ModelCount>, r: seq<ModelCount>, k: nat)
    requires PlacedAt(x, t, r, k) && y.count > x.count
    ensures PlacedAt(x, [y] + t, [y] + r, k + 1)
  {
    var s := [y] + t;
    assert s[..k + 1] == [y] + t[..k] && s[k + 1..] == t[k..];
    assert forall j :: 0 < j < k + 1 ==> s[j] == t[j - 1];
  }

  /** `.sort((a, b) => b[1] - a[1])`: a stable sort by descending count. */
  function SortByRequests(s: seq<ModelCount>): (r: seq<ModelCount>)
    ensures |r| == |s|
  {
    if |s| == 0 then [] else Insert(s[0], SortByRequests(s[1..]))
  }

  lemma {:induction false} InsertPermutes(x: ModelCount, s: seq<ModelCount>)
    ensures multiset(Insert(x, s)) == multiset([x] + s)
    decreases |s|
  {
    if |s| > 0 && x.count < s[0].count {
      InsertPermutes(x, s[1..]);
      assert s == [s[0]] + s[1..];
    }
  }

  lemma {:induction false} InsertDescending(x: ModelCount, s: seq<ModelCount>)
    requires Descending(s)
    ensures Descending(Insert(x, s))
    decreases |s|
  {
    if |s| > 0 && x.count < s[0].count {
      var t := s[1..];
      InsertDescending(x, t);
      InsertPermutes(x, t);
      var r := Insert(x, s);
      var rt := Insert(x, t);
      assert r == [s[0]] + rt;
      forall j | 0 < j < |r| ensures s[0].count >= r[j].count {
        assert r[j] == rt[j - 1];
        assert r[j] in multiset([x] + t);
        if r[j] != x {
          assert r[j] in t;
        }
      }
    }
  }

  lemma WithCountCons(e: ModelCount, s: seq<ModelCount>, c: nat)
    ensures WithCount([e] + s, c) == (if e.count == c then [e] else []) + WithCount(s, c)
  {
    assert ([e] + s)[1..] == s;
  }

  /** Inserting `x` puts it ahead of every entry with its own count. */
  lemma {:induction false} InsertWithCount(x: ModelCount, s: seq<ModelCount>, c: nat)
    ensures WithCount(Insert(x, s), c) == (if x.count == c then [x] else []) + WithCount(s, c)
    decreases |s|
  {
    if |s| == 0 || x.count >= s[0].count {
      WithCountCons(x, s, c);
    } else {
      var t := s[1..];
      InsertWithCount(x, t, c);
      WithCountCons(s[0], Insert(x, t), c);
      WithCountCons(s[0], t, c);
      assert s == [s[0]] + t;
    }
  }

  /**
    The sort is a permutation, leaves the entries in descending order of
    requests, and keeps the entries of each request count in input order.
   */
  lemma {:induction false} SortFacts(s: seq<ModelCount>)
    ensures multiset(SortByRequests(s)) == multiset(s)
    ensures Descending(SortByRequests(s))
    ensures forall c :: WithCount(SortByRequests(s), c) == WithCount(s, c)
    decreases |s|
  {
    if |s| > 0 {
      var rest := SortByRequests(s[1..]);
      SortFacts(s[1..]);
      InsertPermutes(s[0], rest);
      InsertDescending(s[0], rest);
      forall c ensures WithCount(SortByRequests(s), c) == WithCount(s, c) {
        InsertWithCount(s[0], rest, c);
        WithCountCons(s[0], s[1..], c);
      }
      assert s == [s[0]] + s[1..];
    }
  }

  // ---------------------------------------------------------------------
  // The top of the table
  // ---------------------------------------------------------------------

  /** `.slice(0, 5)` of the sorted entries. */
  function TopModels(usage: seq<ModelCount>): (r: seq<ModelCount>)
    ensures |r| == Min(TopCount, |usage|)
    ensures forall i :: 0 <= i < |r| ==> r[i] == SortByRequests(usage)[i]
  {
    var sorted := SortByRequests(usage);
    sorted[..Min(TopCount, |sorted|)]
  }

  /**
    The kept entries are the busiest: at most five, taken from the table,
    in descending order, and no dropped entry has more requests than a kept one.
   */
  lemma TopModelsAreBusiest(usage: seq<ModelCount>)
    ensures |TopModels(usage)| == Min(TopCount, |usage|)
    ensures multiset(TopModels(usage)) <= multiset(usage)
    ensures Descending(TopModels(usage))
    ensures forall e, t :: e in multiset(usage) - multiset(TopModels(usage)) && t in TopModels(usage) ==> e.count <= t.count
  {
    var sorted := SortByRequests(usage);
    SortFacts(usage);
    var k := Min(TopCount, |sorted|);
    var top, rest := sorted[..k], sorted[k..];
    assert sorted == top + rest;
    assert multiset(sorted) == multiset(top) + multiset(rest);
    assert |sorted| == |multiset(sorted)| == |multiset(usage)| == |usage|;
    DescendingSplit(sorted, k);
  }

  lemma DescendingSplit(s: seq<ModelCount>, k: nat)
    requires Descending(s) && k <= |s|
    ensures Descending(s[..k])
    ensures forall e, t :: e in multiset(s[k..]) && t in s[..k] ==> e.count <= t.count
  {
    forall e, t | e in multiset(s[k..]) && t in s[..k]
      ensures e.count <= t.count
    {
      var a :| 0 <= a < |s[k..]| && s[k..][a] == e;
      var b :| 0 <= b < k && s[..k][b] == t;
      assert s[b] == t && s[k + a] == e;
    }
  }

  // ---------------------------------------------------------------------
  // Display rows
  // ---------------------------------------------------------------------

  /** Names longer than fifteen characters become their first fifteen plus `...`. */
  function DisplayName(name: string): (r: string)
    ensures |r| <= NameLimit + 3
    ensures |name| <= NameLimit ==> r == name
    ensures |name| > NameLimit ==> |r| == NameLimit + 3 && r[..NameLimit] == name[..NameLimit] && r[NameLimit..] == "..."
  {
    if |name| > NameLimit then name[..NameLimit] + "..." else name
  }

  /** A model's share of all counted requests, as a whole percentage. */
  function UsagePercent(count: nat, total: nat): (r: int)
    requires total > 0
    ensures -0.5 < r as real - count as real / total as real * 100.0 <= 0.5
    ensures count <= total ==> 0 <= r <= 100
  {
    var share := count as real / total as real;
    assert count <= total ==> share <= 1.0;
    Round(share * 100.0)
  }

  /**
    A row's cost is its usage percentage of a positive total cost, and
    2.3 per percent when there is no positive total.
   */
  predicate CostIsShare(row: ModelRow, totalCost: real)
  {
    if totalCost > 0.0 then row.cost * 100.0 == totalCost * row.usage as real
    else row.cost == row.usage as real * 2.3
  }

  function RowFor(e: ModelCount, index: nat, total: nat, totalCost: real): (r: ModelRow)
    requires total > 0
    ensures r.name == DisplayName(e.name) && r.requests == e.count
    ensures r.usage == UsagePercent(e.count, total)
    ensures r.color == Colors[index % |Colors|]
    ensures totalCost > 0.0 ==> r.cost * 100.0 == totalCost * r.usage as real
    ensures totalCost <= 0.0 ==> r.cost == r.usage as real * 2.3
    ensures CostIsShare(r, totalCost)
    ensures totalCost > 0.0 && e.count <= total ==> 0.0 <= r.cost <= totalCost
  {
    var usage := UsagePercent(e.count, total);
    var cost := if totalCost > 0.0 then totalCost * usage as real / 100.0 else usage as real * 2.3;
    ShareOfCost(totalCost, usage);
    ModelRow(DisplayName(e.name), usage, cost, Colors[index % |Colors|], e.count)
  }

  lemma ShareOfCost(totalCost: real, usage: int)
    ensures (totalCost * usage as real / 100.0) * 100.0 == totalCost * usage as real
    ensures totalCost > 0.0 && 0 <= usage <= 100 ==> 0.0 <= totalCost * usage as real / 100.0 <= totalCost
  {
    if totalCost > 0.0 && 0 <= usage <= 100 {
      assert totalCost * usage as real <= totalCost * 100.0;
    }
  }

  lemma {:induction false} SumCountsBounds(usage: seq<ModelCount>)
    requires WellFormed(usage)
    ensures |usage| > 0 ==> SumCounts(usage) > 0
    ensures forall e :: e in usage ==> e.count <= SumCounts(usage)
    decreases |usage|
  {
    if |usage| > 0 {
      assert WellFormed(usage[1..]);
      SumCountsBounds(usage[1..]);
      assert forall e :: e in usage ==> e == usage[0] || e in usage[1..];
    }
  }

  /** The display rows for the kept entries, in their order. */
  function FormatRows(top: seq<ModelCount>, total: nat, totalCost: real): (r: seq<ModelRow>)
    requires total > 0
    requires forall i :: 0 <= i < |top| ==> top[i].count <= total
    ensures |r| == |top|
    ensures forall i :: 0 <= i < |r| ==> r[i].requests == top[i].count && r[i].name == DisplayName(top[i].name)
    ensures forall i :: 0 <= i < |r| ==> r[i].usage == UsagePercent(top[i].count, total)
    ensures forall i :: 0 <= i < |r| ==> 0 <= r[i].usage <= 100
    ensures forall i :: 0 <= i < |r| ==> r[i].color == Colors[i % |Colors|]
    ensures forall i :: 0 <= i < |r| ==> CostIsShare(r[i], totalCost)
    ensures totalCost > 0.0 ==> forall i :: 0 <= i < |r| ==> 0.0 <= r[i].cost <= totalCost
  {
    seq(|top|, i requires 0 <= i < |top| => RowFor(top[i], i, total, totalCost))
  }

  /**
    `models`: the busiest five models with their share, cost, short name and
    colour, most requests first; the fixed three-entry table when no row
    names a model.
   */
  function ModelsTable(usage: seq<ModelCount>, totalCost: real): (r: seq<ModelRow>)
    requires WellFormed(usage)
    ensures |usage| == 0 ==> r == MockModels
    ensures |usage| > 0 ==> |r| == Min(TopCount, |usage|)
    ensures |r| <= TopCount
    ensures forall i, j :: 0 <= i < j < |r| ==> r[i].requests >= r[j].requests
    ensures forall i :: 0 <= i < |r| ==> 0 <= r[i].usage <= 100
    ensures forall i :: 0 <= i < |r| ==> r[i].color == Colors[i % |Colors|]
    ensures |usage| > 0 ==> forall i :: 0 <= i < |r| ==>
      exists e :: e in usage && r[i].name == DisplayName(e.name) && r[i].requests == e.count
    ensures |usage| > 0 ==> forall i :: 0 <= i < |r| ==> r[i].usage == UsagePercent(r[i].requests, SumCounts(usage))
    ensures |usage| > 0 ==> forall i :: 0 <= i < |r| ==> CostIsShare(r[i], totalCost)
  {
    if |usage| == 0 then
      MockModelsShape();
      MockModels
    else
      TopWithinTotal(usage);
      FormatRows(TopModels(usage), SumCounts(usage), totalCost)
  }

  /** What the display step needs of the kept entries. */
  lemma TopWithinTotal(usage: seq<ModelCount>)
    requires WellFormed(usage) && |usage| > 0
    ensures SumCounts(usage) > 0
    ensures |TopModels(usage)| == Min(TopCount, |usage|)
    ensures Descending(TopModels(usage))
    ensures forall i :: 0 <= i < |TopModels(usage)| ==> TopModels(usage)[i] in usage
    ensures forall i :: 0 <= i < |TopModels(usage)| ==> TopModels(usage)[i].count <= SumCounts(usage)
  {
    var top := TopModels(usage);
    TopModelsAreBusiest(usage);
    SumCountsBounds(usage);
    forall i | 0 <= i < |top| ensures top[i] in usage {
      assert top[i] in multiset(top);
    }
  }

  lemma MockModelsShape()
    ensures forall i, j :: 0 <= i < j < |MockModels| ==> MockModels[i].requests >= MockModels[j].requests
    ensures forall i :: 0 <= i < |MockModels| ==> 0 <= MockModels[i].usage <= 100
    ensures forall i :: 0 <= i < |MockModels| ==> MockModels[i].color == Colors[i % |Colors|]
  {
  }
}

=== FILE: report.dfy ===
/**
  The analysis record the upload page produces and the story view consumes.
  Fields the story view reads but the upload page never fills
  (`timePeriod`, `extendedThinking`) are optional.
 */
module Report {
  import opened Basics
  import opened ModelTable

  datatype Impact = High | Medium | Low

  /** One cost-saving suggestion; `savings` is a whole amount per month. */
  datatype Recommendation = Recommendation(title: string, description: string, savings: int, impact: Impact)

  /** One weekday of the weekly profile. */
  datatype DayUsage = DayUsage(day: string, requests: int, cost: int)

  /**
    The reporting period. `value` is `None` when it is missing; the unit is
    free text such as `days` or `weeks`.
   */
  datatype TimePeriod = TimePeriod(value: Option<real>, unit: string)

  datatype ThinkingSummary = ThinkingSummary(count: int, cost: real, percentage: real)

  datatype Analysis = Analysis(
    totalSpent: real,
    totalRequests: int,
    filesAnalyzed: int,
    models: seq<ModelRow>,
    recommendations: seq<Recommendation>,
    weeklyUsage: seq<DayUsage>,
    potentialSavings: int,
    timePeriod: Option<TimePeriod>,
    extendedThinking: Option<ThinkingSummary>)

  /** The weekdays of the weekly profile, in order. */
  const WeekDays: seq<string> := ["Mon", "Tue", "Wed", "Thu", "Fri", "Sat", "Sun"]
}

=== FILE: savings.dfy ===
/**
  Collecting savings on the recommendation slides. Each recommendation slide
  has a button that adds the recommendation's monthly savings to a running
  total; the summary slide shows that total once it is positive.

  The page decides whether a recommendation is already collected from the
  running total alone, as `total >= (index + 1) * savings`. That test
  misreports: a recommendation can show as collected without a click, and
  another can be collected twice. `AsWritten*` below models the page's rule
  with inputs that show both; the wallet after it remembers which
  recommendations were collected, and its total is their savings.
 */
module Savings {
  import opened Basics
  import opened Report
  import opened Story

  /** `collectSavings(amount)`: the running total grows by the amount. */
  function Collect(total: int, amount: int): (r: int)
    ensures amount >= 0 ==> r >= total
    ensures amount > 0 ==> r > total
  {
    total + amount
  }

  /** The savings of the recommendations that get a slide, in slide order. */
  function OfferedSavings(a: Analysis): (r: seq<int>)
    ensures |r| == Min(RecommendationSlides, |a.recommendations|)
    ensures forall k :: 0 <= k < |r| ==> r[k] == a.recommendations[k].savings
  {
    var recs := a.recommendations[..Min(RecommendationSlides, |a.recommendations|)];
    seq(|recs|, k requires 0 <= k < |recs| => recs[k].savings)
  }

  /** Every click lands on an offered recommendation. */
  predicate ValidClicks(savings: seq<int>, clicks: seq<nat>)
  {
    forall k :: 0 <= k < |clicks| ==> clicks[k] < |savings|
  }

  // ---------------------------------------------------------------------
  // The page's rule
  // ---------------------------------------------------------------------

  /** `isCollected` as the page computes it, from the running total alone. */
  function AsWrittenIsCollected(total: int, index: nat, savings: int): (b: bool)
    ensures savings > 0 ==> (b <==> index < total / savings)
    ensures savings <= 0 && total >= 0 ==> b
  {
    SlotsCovered(total, index, savings);
    total >= (index + 1) * savings
  }

  /** A total covers `index + 1` equal slots exactly when more than `index` fit into it. */
  lemma SlotsCovered(total: int, index: nat, savings: int)
    ensures savings > 0 ==> (total >= (index + 1) * savings <==> index < total / savings)
  {
    if savings > 0 {
      var q := total / savings;
      assert total == q * savings + total % savings;
      if index < q {
        assert (index + 1) * savings <= q * savings;
      } else {
        assert (index + 1) * savings >= (q + 1) * savings;
      }
    }
  }

  /** A click on slide `index`: collects unless the page considers it collected. */
  function AsWrittenClick(total: int, index: nat, savings: int): (r: int)
    ensures AsWrittenIsCollected(total, index, savings) ==> r == total
    ensures !AsWrittenIsCollected(total, index, savings) ==> r == Collect(total, savings)
    ensures savings >= 0 ==> r >= total
  {
    if AsWrittenIsCollected(total, index, savings) then total else Collect(total, savings)
  }

  /** The running total after a sequence of clicks, starting from zero. */
  function AsWrittenRun(savings: seq<int>, clicks: seq<nat>): (r: int)
    requires ValidClicks(savings, clicks)
    ensures |clicks| == 0 ==> r == 0
    ensures (forall i :: 0 <= i < |savings| ==> savings[i] >= 0) ==> r >= 0
  {
    if |clicks| == 0 then 0
    else
      var i := clicks[|clicks| - 1];
      AsWrittenClick(AsWrittenRun(savings, clicks[..|clicks| - 1]), i, savings[i])
  }

  /** With non-negative savings the running total never goes down. */
  lemma {:induction false} AsWrittenRunMonotone(savings: seq<int>, clicks: seq<nat>, k: nat)
    requires ValidClicks(savings, clicks) && k <= |clicks|
    requires forall i :: 0 <= i < |savings| ==> savings[i] >= 0
    ensures AsWrittenRun(savings, clicks[..k]) <= AsWrittenRun(savings, clicks)
    decreases |clicks| - k
  {
    if k < |clicks| {
      var pre := clicks[..|clicks| - 1];
      assert pre[..k] == clicks[..k];
      AsWrittenRunMonotone(savings, pre, k);
    } else {
      assert clicks[..k] == clicks;
    }
  }

  /**
    With the default recommendations (45, 28 and 22 a month), collecting the
    first two makes the third show as collected although it was never clicked.
   */
  lemma AsWrittenShowsUnclickedAsCollected()
    ensures OfferedSavings(DefaultAnalysis) == [45, 28, 22]
    ensures AsWrittenRun([45, 28, 22], [0, 1]) == 73
    ensures 2 !in [0, 1] && AsWrittenIsCollected(73, 2, 22)
    ensures AsWrittenRun([45, 28, 22], [0, 1, 2]) == 73
  {
    assert [0, 1][..1] == [0];
    assert [0][..0] == [];
    assert [0, 1, 2][..2] == [0, 1];
  }

  /**
    With the same recommendations, the second one still shows as not
    collected after its first click, and a second click adds its savings again.
   */
  lemma AsWrittenCollectsTwice()
    ensures AsWrittenRun([45, 28, 22], [1]) == 28
    ensures !AsWrittenIsCollected(28, 1, 28)
    ensures AsWrittenRun([45, 28, 22], [1, 1]) == 56
  {
    assert [1, 1][..1] == [1];
    assert [1][..0] == [];
  }

  // ---------------------------------------------------------------------
  // The corrected collector
  // ---------------------------------------------------------------------

  /** Which offered recommendations have been collected, by slide index. */
  datatype Wallet = Wallet(collected: seq<bool>)

  function EmptyWallet(n: nat): (w: Wallet)
    ensures |w.collected| == n
    ensures forall i :: 0 <= i < n ==> !w.collected[i]
  {
    Wallet(seq(n, _ => false))
  }

  /** The savings of the collected recommendations, added up. */
  function CollectedTotal(savings: seq<int>, flags: seq<bool>): int
    requires |flags| == |savings|
  {
    if |savings| == 0 then 0
    else (if flags[0] then savings[0] else 0) + CollectedTotal(savings[1..], flags[1..])
  }

  /** A click collects the recommendation once; clicking a collected one changes nothing. */
  function Click(w: Wallet, index: nat): (r: Wallet)
    requires index < |w.collected|
    ensures |r.collected| == |w.collected|
    ensures r.collected[index]
    ensures forall j :: 0 <= j < |w.collected| && j != index ==> r.collected[j] == w.collected[j]
  {
    if w.collected[index] then w else Wallet(w.collected[index := true])
  }

  /** The wallet after a sequence of clicks, starting empty. */
  function Run(savings: seq<int>, clicks: seq<nat>): (w: Wallet)
    requires ValidClicks(savings, clicks)
    ensures |w.collected| == |savings|
  {
    if |clicks| == 0 then EmptyWallet(|savings|)
    else Click(Run(savings, clicks[..|clicks| - 1]), clicks[|clicks| - 1])
  }

  /** A recommendation shows as collected exactly when it was clicked. */
  lemma {:induction false} CollectedIffClicked(savings: seq<int>, clicks: seq<nat>, i: nat)
    requires ValidClicks(savings, clicks) && i < |savings|
    ensures Run(savings, clicks).collected[i] <==> i in clicks
  {
    if |clicks| > 0 {
      var pre := clicks[..|clicks| - 1];
      CollectedIffClicked(savings, pre, i);
      assert clicks == pre + [clicks[|clicks| - 1]];
    }
  }

  /** A click on an uncollected recommendation adds exactly its savings, as `collectSavings` does. */
  lemma {:induction false} ClickAddsSavings(savings: seq<int>, flags: seq<bool>, index: nat)
    requires |flags| == |savings| && index < |savings|
    ensures CollectedTotal(savings, flags[index := true]) ==
      if flags[index] then CollectedTotal(savings, flags) else Collect(CollectedTotal(savings, flags), savings[index])
    decreases |savings|
  {
    if index > 0 {
      ClickAddsSavings(savings[1..], flags[1..], index - 1);
      assert flags[index := true][1..] == flags[1..][index - 1 := true];
    } else {
      assert flags[index := true][1..] == flags[1..];
    }
  }

  /** With non-negative savings the collected total never exceeds what was offered. */
  lemma {:induction false} CollectedWithinOffered(savings: seq<int>, flags: seq<bool>)
    requires |flags| == |savings|
    requires forall i :: 0 <= i < |savings| ==> savings[i] >= 0
    ensures 0 <= CollectedTotal(savings, flags) <= CollectedTotal(savings, seq(|savings|, _ => true))
    decreases |savings|
  {
    if |savings| > 0 {
      CollectedWithinOffered(savings[1..], flags[1..]);
      assert seq(|savings|, _ => true)[1..] == seq(|savings| - 1, _ => true);
    }
  }

  /** The wallet's total never goes down as clicks arrive. */
  lemma RunTotalMonotone(savings: seq<int>, clicks: seq<nat>)
    requires ValidClicks(savings, clicks) && |clicks| > 0
    requires forall i :: 0 <= i < |savings| ==> savings[i] >= 0
    ensures CollectedTotal(savings, Run(savings, clicks[..|clicks| - 1]).collected)
      <= CollectedTotal(savings, Run(savings, clicks).collected)
  {
    var w := Run(savings, clicks[..|clicks| - 1]);
    var i := clicks[|clicks| - 1];
    ClickAddsSavings(savings, w.collected, i);
    if w.collected[i] {
      assert w.collected[i := true] == w.collected;
    }
  }

  /** The clicks that fooled the page's rule are counted right by the wallet. */
  lemma WalletFixesCounterexamples()
    ensures !Run([45, 28, 22], [0, 1]).collected[2]
    ensures CollectedTotal([45, 28, 22], Run([45, 28, 22], [0, 1]).collected) == 73
    ensures CollectedTotal([45, 28, 22], Run([45, 28, 22], [1, 1]).collected) == 28
  {
    CollectedIffClicked([45, 28, 22], [0, 1], 2);
    assert [0, 1][..1] == [0];
    assert [0][..0] == [];
    assert [1, 1][..1] == [1];
    assert [1][..0] == [];
    assert [true, true, false][1..] == [true, false];
    assert [false, true, false][1..] == [true, false];
  }

  // ---------------------------------------------------------------------
  // Summary slide
  // ---------------------------------------------------------------------

  /** The summary figure: the collected total once it is positive, the potential savings before. */
  function SummaryAmount(collected: int, potential: int): (r: int)
    ensures collected > 0 ==> r == collected
    ensures collected <= 0 ==> r == potential
    ensures r == collected || r == potential
    ensures potential > 0 ==> r > 0
  {
    if collected > 0 then collected else potential
  }

  /** Before any click the summary shows the analysis's potential savings. */
  lemma SummaryBeforeCollecting(a: Analysis)
    ensures SummaryAmount(CollectedTotal(OfferedSavings(a), Run(OfferedSavings(a), []).collected), a.potentialSavings)
      == a.potentialSavings
  {
    NothingCollected(OfferedSavings(a));
  }

  lemma {:induction false} NothingCollected(savings: seq<int>)
    ensures CollectedTotal(savings, EmptyWallet(|savings|).collected) == 0
    decreases |savings|
  {
    if |savings| > 0 {
      assert EmptyWallet(|savings|).collected[1..] == EmptyWallet(|savings| - 1).collected;
      NothingCollected(savings[1..]);
    }
  }
}

=== FILE: story.dfy ===
/**
  The story view's derived values: the analysis it shows (the one handed in,
  or a fixed default), the busiest weekday, the number of days in the
  reporting period and the per-day averages over it, the ordered slides, and
  which slide the scroll position selects.
 */
module Story {
  import opened Basics
  import opened ModelTable
  import opened Report
  import opened Analyze

  // ---------------------------------------------------------------------
  // The analysis shown
  // ---------------------------------------------------------------------

  /** The analysis shown when none is handed in. */
  const DefaultAnalysis: Analysis := Analysis(
    229.0,
    1250,
    1,
    [
      ModelRow("GPT-4", 45, 103.0, "#F97CF5", 562),
      ModelRow("GPT-3.5", 30, 69.0, "#A855F7", 375),
      ModelRow("Claude", 25, 57.0, "#8B5CF6", 313)
    ],
    [
      Recommendation("Switch to lighter models", "Use GPT-3.5 for simple tasks", 45, High),
      Recommendation("Cache repeated queries", "15% of queries are duplicates", 28, Medium),
      Recommendation("Optimize prompts", "Reduce token usage by 20%", 22, Medium)
    ],
    [
      DayUsage("Mon", 180, 32),
      DayUsage("Tue", 220, 41),
      DayUsage("Wed", 195, 35),
      DayUsage("Thu", 240, 45),
      DayUsage("Fri", 200, 38),
      DayUsage("Sat", 110, 20),
      DayUsage("Sun", 105, 18)
    ],
    110,
    None,
    Some(ThinkingSummary(0, 0.0, 0.0)))

  /** `data || defaults`: the analysis handed in, or the default one when there is none. */
  function ResolveAnalysis(data: Option<Analysis>): (a: Analysis)
    ensures data.Some? ==> a == data.value
    ensures data.None? ==> a == DefaultAnalysis
    ensures data.None? ==> |a.models| == 3 && |a.recommendations| == 3 && |a.weeklyUsage| == 7
    ensures data.None? ==> a.extendedThinking.Some? && a.extendedThinking.value.count == 0
    ensures data.None? ==> a.timePeriod.None? && a.totalSpent == 229.0 && a.totalRequests == 1250
  {
    if data.Some? then data.value else DefaultAnalysis
  }

  // ---------------------------------------------------------------------
  // Busiest day
  // ---------------------------------------------------------------------

  /** One step of the reduction: a later day replaces the leader only with strictly more requests. */
  function BusierOf(leader: DayUsage, day: DayUsage): DayUsage
  {
    if day.requests > leader.requests then day else leader
  }

  /** `days.reduce(BusierOf, init)`. */
  function ReduceBusiest(init: DayUsage, days: seq<DayUsage>): (r: DayUsage)
    ensures r == init || r in days
    ensures r.requests >= init.requests
    ensures forall j :: 0 <= j < |days| ==> days[j].requests <= r.requests
  {
    if |days| == 0 then init
    else BusierOf(ReduceBusiest(init, days[..|days| - 1]), days[|days| - 1])
  }

  /**
    `busiestDay`: the weekly profile reduced from its first day. The page
    has no busiest day for an empty profile; the model answers `None`.
   */
  function BusiestDay(week: seq<DayUsage>): (r: Option<DayUsage>)
    ensures r.Some? <==> |week| > 0
    ensures r.Some? ==> r.value in week
    ensures r.Some? ==> forall j :: 0 <= j < |week| ==> week[j].requests <= r.value.requests
  {
    if |week| == 0 then None else Some(ReduceBusiest(week[0], week))
  }

  /** Day `i` has the most requests, and every earlier day has strictly fewer. */
  predicate IsFirstBusiest(week: seq<DayUsage>, i: int)
  {
    && 0 <= i < |week|
    && (forall j :: 0 <= j < |week| ==> week[j].requests <= week[i].requests)
    && (forall j :: 0 <= j < i ==> week[j].requests < week[i].requests)
  }

  /** Ties go to the earliest day: the busiest day is the first day with the most requests. */
  lemma {:induction false} BusiestDayIsFirstBusiest(week: seq<DayUsage>, i: int)
    requires IsFirstBusiest(week, i)
    ensures BusiestDay(week) == Some(week[i])
    decreases |week|
  {
    var n := |week|;
    if n > 1 {
      var pre := week[..n - 1];
      if i < n - 1 {
        assert IsFirstBusiest(pre, i);
        BusiestDayIsFirstBusiest(pre, i);
      } else {
        var leader := ReduceBusiest(week[0], pre);
        if leader != week[0] {
          var j :| 0 <= j < |pre| && pre[j] == leader;
          assert week[j] == leader;
        }
      }
    }
  }

  /** Every non-empty profile has a first busiest day. */
  lemma {:induction false} FirstBusiestExists(week: seq<DayUsage>)
    requires |week| > 0
    ensures exists i :: IsFirstBusiest(week, i)
    decreases |week|
  {
    var n := |week|;
    if n == 1 {
      assert IsFirstBusiest(week, 0);
    } else {
      var pre := week[..n - 1];
      FirstBusiestExists(pre);
      var i :| IsFirstBusiest(pre, i);
      if week[n - 1].requests > week[i].requests {
        assert IsFirstBusiest(week, n - 1);
      } else {
        assert IsFirstBusiest(week, i);
      }
    }
  }

  // ---------------------------------------------------------------------
  // Period and per-day averages
  // ---------------------------------------------------------------------

  /** How many days one unit of the period lasts: any unit other than days or weeks counts as thirty days. */
  function UnitDays(unit: string): (r: real)
    ensures r == 1.0 || r == 7.0 || r == 30.0
    ensures unit == "day" || unit == "days" <==> r == 1.0
    ensures unit == "week" || unit == "weeks" <==> r == 7.0
  {
    if unit == "day" || unit == "days" then 1.0
    else if unit == "week" || unit == "weeks" then 7.0
    else 30.0
  }

  /** The period's length when its value is present and non-zero. */
  predicate HasPeriod(tp: Option<TimePeriod>)
  {
    tp.Some? && tp.value.value.Some? && tp.value.value.value != 0.0
  }

  /**
    `daysInPeriod`: a week when no period is known or its value is zero,
    otherwise the value scaled by its unit. Never zero, so dividing by it is
    defined.
   */
  function DaysInPeriod(tp: Option<TimePeriod>): (r: real)
    ensures r != 0.0
    ensures !HasPeriod(tp) ==> r == 7.0
    ensures HasPeriod(tp) && tp.value.value.value > 0.0 ==> r >= tp.value.value.value
    ensures HasPeriod(tp) ==> r / UnitDays(tp.value.unit) == tp.value.value.value
  {
    if HasPeriod(tp) then
      tp.value.value.value * UnitDays(tp.value.unit)
    else 7.0
  }

  /** `Math.round(amount / daysInPeriod)`. */
  function PerDay(amount: real, days: real): (r: int)
    requires days != 0.0
    ensures days > 0.0 ==> (r as real - 0.5) * days <= amount < (r as real + 0.5) * days
    ensures days < 0.0 ==> (r as real + 0.5) * days < amount <= (r as real - 0.5) * days
  {
    var r := Round(amount / days);
    UndoDivision(r as real - 0.5, amount, r as real + 0.5, days);
    r
  }

  lemma UndoDivision(lo: real, x: real, hi: real, d: real)
    requires d != 0.0 && lo <= x / d < hi
    ensures d > 0.0 ==> lo * d <= x < hi * d
    ensures d < 0.0 ==> hi * d < x <= lo * d
  {
    assert x / d * d == x;
  }

  /** `avgPerDay`: spending per day over the period. */
  function AvgPerDay(a: Analysis): (r: int)
    ensures !HasPeriod(a.timePeriod) ==> r == PerDay(a.totalSpent, 7.0)
    ensures var days := DaysInPeriod(a.timePeriod);
      days > 0.0 ==> (r as real - 0.5) * days <= a.totalSpent < (r as real + 0.5) * days
    ensures var days := DaysInPeriod(a.timePeriod);
      days < 0.0 ==> (r as real + 0.5) * days < a.totalSpent <= (r as real - 0.5) * days
  {
    PerDay(a.totalSpent, DaysInPeriod(a.timePeriod))
  }

  /** `requestsPerDay`: requests per day over the period. */
  function RequestsPerDay(a: Analysis): (r: int)
    ensures !HasPeriod(a.timePeriod) ==> r == PerDay(a.totalRequests as real, 7.0)
    ensures var days := DaysInPeriod(a.timePeriod);
      days > 0.0 ==> (r as real - 0.5) * days <= a.totalRequests as real < (r as real + 0.5) * days
    ensures var days := DaysInPeriod(a.timePeriod);
      days < 0.0 ==> (r as real + 0.5) * days < a.totalRequests as real <= (r as real - 0.5) * days
  {
    PerDay(a.totalRequests as real, DaysInPeriod(a.timePeriod))
  }

  /** A period of one week, in any of its spellings, gives the same averages as no period at all. */
  lemma OneWeekIsTheDefault(a: Analysis, unit: string)
    requires unit in {"week", "weeks"}
    ensures AvgPerDay(a.(timePeriod := Some(TimePeriod(Some(1.0), unit)))) == AvgPerDay(a.(timePeriod := None))
    ensures RequestsPerDay(a.(timePeriod := Some(TimePeriod(Some(1.0), unit)))) == RequestsPerDay(a.(timePeriod := None))
  {
  }

  /** The averages of the default analysis: 229 over a week is 33 a day, 1250 requests is 179 a day. */
  lemma DefaultAverages()
    ensures AvgPerDay(DefaultAnalysis) == 33
    ensures RequestsPerDay(DefaultAnalysis) == 179
  {
    RoundOfBetween(229.0 / 7.0, 33);
    RoundOfBetween(1250.0 / 7.0, 179);
  }

  lemma RoundOfBetween(x: real, n: int)
    requires n as real - 0.5 <= x < n as real + 0.5
    ensures Round(x) == n
  {
  }

  // ---------------------------------------------------------------------
  // Slides
  // ---------------------------------------------------------------------

  datatype Slide =
    | Intro
    | Spend
    | Requests
    | Models
    | Patterns
    | Thinking
    | RecommendationSlide(rec: Recommendation, index: nat)
    | Summary

  /** The slides every story opens with, in order. */
  const OpeningSlides: seq<Slide> := [Intro, Spend, Requests, Models, Patterns]

  /** At most this many recommendations get a slide. */
  const RecommendationSlides: nat := 3

  /** `extendedThinking?.count > 0`. */
  predicate ShowsThinking(a: Analysis)
  {
    a.extendedThinking.Some? && a.extendedThinking.value.count > 0
  }

  /** One slide per recommendation, numbered from zero. */
  function RecommendationSlidesOf(recs: seq<Recommendation>): (r: seq<Slide>)
    ensures |r| == |recs|
    ensures forall k :: 0 <= k < |r| ==> r[k] == RecommendationSlide(recs[k], k)
  {
    seq(|recs|, k requires 0 <= k < |recs| => RecommendationSlide(recs[k], k))
  }

  /**
    `slides`: the five opening slides, the thinking slide when any request
    used extended thinking, a slide for each of the first three
    recommendations, and the summary last.
   */
  function Slides(a: Analysis): (r: seq<Slide>)
    ensures |r| == |OpeningSlides| + (if ShowsThinking(a) then 1 else 0) + Min(RecommendationSlides, |a.recommendations|) + 1
    ensures r[..5] == OpeningSlides
    ensures r[|r| - 1] == Summary
    ensures Thinking in r <==> ShowsThinking(a)
    ensures ShowsThinking(a) ==> r[5] == Thinking
    ensures var first := if ShowsThinking(a) then 6 else 5;
      forall k :: 0 <= k < Min(RecommendationSlides, |a.recommendations|) ==>
        r[first + k] == RecommendationSlide(a.recommendations[k], k)
  {
    var recs := a.recommendations[..Min(RecommendationSlides, |a.recommendations|)];
    var thinking := if ShowsThinking(a) then [Thinking] else [];
    var r := OpeningSlides + thinking + RecommendationSlidesOf(recs) + [Summary];
    assert Thinking !in OpeningSlides && Thinking !in RecommendationSlidesOf(recs);
    r
  }

  /** The slides of a fresh analysis: no thinking slide, three of its four recommendations, nine in all. */
  lemma AnalyzedStorySlides(data: seq<ColumnResolver.Row>, fileCount: int, parse: Aggregator.ParseFloat)
    ensures var a := AnalyzeData(data, fileCount, parse);
      && |Slides(a)| == 9
      && Thinking !in Slides(a)
      && forall k :: 0 <= k < 3 ==> Slides(a)[5 + k] == RecommendationSlide(a.recommendations[k], k)
  {
  }

  /** The default story: nine slides, its busiest day is Thursday. */
  lemma DefaultStory()
    ensures |Slides(DefaultAnalysis)| == 9
    ensures Thinking !in Slides(DefaultAnalysis)
    ensures BusiestDay(DefaultAnalysis.weeklyUsage) == Some(DayUsage("Thu", 240, 45))
    ensures |DefaultAnalysis.weeklyUsage| == 7
    ensures forall i :: 0 <= i < 7 ==> DefaultAnalysis.weeklyUsage[i].day == WeekDays[i]
  {
    BusiestDayIsFirstBusiest(DefaultAnalysis.weeklyUsage, 3);
  }

  // ---------------------------------------------------------------------
  // Scroll position
  // ---------------------------------------------------------------------

  /** `scrollToSlide(index)`: the scroll offset that brings slide `index` into view. */
  function ScrollOffset(index: int, height: real): (r: real)
    requires height > 0.0
    ensures index >= 0 ==> r >= 0.0
  {
    index as real * height
  }

  /**
    The slide selected by a scroll offset: the nearest slide, but never past
    the last one. `height` is the window height, taken to be positive.
   */
  function CurrentSlide(scrollTop: real, height: real, totalSlides: nat): (r: int)
    requires height > 0.0
    ensures r <= totalSlides - 1
    ensures totalSlides > 0 && scrollTop >= 0.0 ==> 0 <= r
    ensures r == totalSlides - 1 || r == Round(scrollTop / height)
    ensures r <= Round(scrollTop / height)
    ensures Round(scrollTop / height) <= totalSlides - 1 ==> r == Round(scrollTop / height)
  {
    var nearest := Round(scrollTop / height);
    assert scrollTop >= 0.0 ==> scrollTop / height >= 0.0;
    Min(nearest, totalSlides - 1)
  }

  /** Scrolling to a slide selects that slide. */
  lemma ScrollRoundTrip(index: int, height: real, totalSlides: nat)
    requires height > 0.0 && 0 <= index < totalSlides
    ensures CurrentSlide(ScrollOffset(index, height), height, totalSlides) == index
  {
    assert ScrollOffset(index, height) / height == index as real;
    RoundOfInt(index);
  }

  /** Scrolling further down never selects an earlier slide. */
  lemma CurrentSlideMonotone(top: real, top': real, height: real, totalSlides: nat)
    requires height > 0.0 && top <= top'
    ensures CurrentSlide(top, height, totalSlides) <= CurrentSlide(top', height, totalSlides)
  {
    assert top / height <= top' / height by {
      assert top' / height - top / height == (top' - top) / height;
    }
    RoundMonotone(top / height, top' / height);
  }
}

=== FILE: upload.dfy ===
/**
  The upload page around the analysis: taking in dropped or picked files
  (only CSV files, and none whose path is already listed; a path repeated
  within one batch is taken twice), removing one, and the analyze action,
  which parses every file, keeps the rows that hold any text, reports
  progress after each file and hands all rows to `analyzeData`.
 */
module Upload {
  import opened Basics
  import opened ColumnResolver
  import opened Aggregator
  import opened Report
  import opened Analyze

  /** A picked or dropped file; `relativePath` is empty when the file has none. */
  datatype CsvFile = CsvFile(name: string, mimeType: string, relativePath: string)

  const NoCsvMessage: string := "No CSV files found. Please upload CSV files or a folder containing them."
  const ParseFailureMessage: string := "Failed to parse CSV files. Please check the file format."

  /** The page state the intake and removal act on. */
  datatype UploadState = UploadState(files: seq<CsvFile>, error: Option<string>)

  /** What the intake leaves behind, and the CSV files it passes to `onFileUpload`. */
  datatype Intake = Intake(state: UploadState, announced: Option<seq<CsvFile>>)

  /** `f.relativePath || f.name`: the key a file is de-duplicated by. */
  function PathKey(f: CsvFile): string
  {
    if f.relativePath != "" then f.relativePath else f.name
  }

  /** Accepted by name suffix (letter case matters) or by MIME type. */
  predicate IsCsv(f: CsvFile)
  {
    EndsWith(f.name, ".csv") || f.mimeType == "text/csv"
  }

  function PathKeys(files: seq<CsvFile>): set<string>
  {
    set f | f in files :: PathKey(f)
  }

  /** The CSV files of a batch, in batch order. */
  function CsvOnly(batch: seq<CsvFile>): (r: seq<CsvFile>)
    ensures |r| <= |batch|
    ensures forall f :: f in r <==> f in batch && IsCsv(f)
  {
    if |batch| == 0 then []
    else (if IsCsv(batch[0]) then [batch[0]] else []) + CsvOnly(batch[1..])
  }

  /** The files whose key is not in `keys`, in order. */
  function NewOnly(files: seq<CsvFile>, keys: set<string>): (r: seq<CsvFile>)
    ensures |r| <= |files|
  {
    if |files| == 0 then []
    else (if PathKey(files[0]) !in keys then [files[0]] else []) + NewOnly(files[1..], keys)
  }

  /** The filter keeps exactly the files whose key is not in `keys`. */
  lemma {:induction false} NewOnlyMembers(files: seq<CsvFile>, keys: set<string>)
    ensures forall f :: f in NewOnly(files, keys) <==> f in files && PathKey(f) !in keys
    decreases |files|
  {
    if |files| > 0 {
      NewOnlyMembers(files[1..], keys);
      assert files == [files[0]] + files[1..];
    }
  }

  /**
    `processFiles`: with no CSV file in the batch, only the error is set;
    otherwise the error is cleared and the batch's CSV files whose key is
    not already listed are appended, in batch order.
   */
  function ProcessFiles(st: UploadState, batch: seq<CsvFile>): (r: Intake)
    ensures |CsvOnly(batch)| == 0 ==> r.state == UploadState(st.files, Some(NoCsvMessage)) && r.announced.None?
    ensures |CsvOnly(batch)| > 0 ==> r.state.error.None? && r.announced == Some(CsvOnly(batch))
    ensures |st.files| <= |r.state.files| && r.state.files[..|st.files|] == st.files
    ensures forall f :: f in r.state.files[|st.files|..] <==>
      |CsvOnly(batch)| > 0 && f in batch && IsCsv(f) && PathKey(f) !in PathKeys(st.files)
  {
    var csv := CsvOnly(batch);
    if |csv| == 0 then
      Intake(st.(error := Some(NoCsvMessage)), None)
    else
      var files := st.files + NewOnly(csv, PathKeys(st.files));
      NewOnlyMembers(csv, PathKeys(st.files));
      assert files[..|st.files|] == st.files && files[|st.files|..] == NewOnly(csv, PathKeys(st.files));
      Intake(UploadState(files, None), Some(csv))
  }

  lemma {:induction false} CsvOnlyAppend(a: seq<CsvFile>, b: seq<CsvFile>)
    ensures CsvOnly(a + b) == CsvOnly(a) + CsvOnly(b)
    decreases |a|
  {
    if |a| > 0 {
      var h := if IsCsv(a[0]) then [a[0]] else [];
      assert (a + b)[0] == a[0] && (a + b)[1..] == a[1..] + b;
      assert CsvOnly(a + b) == h + CsvOnly(a[1..] + b);
      assert CsvOnly(a) == h + CsvOnly(a[1..]);
      CsvOnlyAppend(a[1..], b);
    } else {
      assert a + b == b;
    }
  }

  lemma {:induction false} NewOnlyAppend(a: seq<CsvFile>, b: seq<CsvFile>, keys: set<string>)
    ensures NewOnly(a + b, keys) == NewOnly(a, keys) + NewOnly(b, keys)
    decreases |a|
  {
    if |a| > 0 {
      var h := if PathKey(a[0]) !in keys then [a[0]] else [];
      assert (a + b)[0] == a[0] && (a + b)[1..] == a[1..] + b;
      assert NewOnly(a + b, keys) == h + NewOnly(a[1..] + b, keys);
      assert NewOnly(a, keys) == h + NewOnly(a[1..], keys);
      NewOnlyAppend(a[1..], b, keys);
    } else {
      assert a + b == b;
    }
  }

  /** The appended files are the batch's new CSV files in batch order: the filter distributes over the batch. */
  lemma IntakeKeepsBatchOrder(st: UploadState, a: seq<CsvFile>, b: seq<CsvFile>)
    requires |CsvOnly(a + b)| > 0
    ensures ProcessFiles(st, a + b).state.files ==
      st.files + NewOnly(CsvOnly(a), PathKeys(st.files)) + NewOnly(CsvOnly(b), PathKeys(st.files))
  {
    CsvOnlyAppend(a, b);
    NewOnlyAppend(CsvOnly(a), CsvOnly(b), PathKeys(st.files));
  }

  /** Taking in the same batch again appends nothing more. */
  lemma IntakeIdempotent(st: UploadState, batch: seq<CsvFile>)
    ensures ProcessFiles(ProcessFiles(st, batch).state, batch).state.files == ProcessFiles(st, batch).state.files
  {
    var st1 := ProcessFiles(st, batch).state;
    var csv := CsvOnly(batch);
    if |csv| > 0 {
      var keys1 := PathKeys(st1.files);
      forall f | f in csv ensures PathKey(f) in keys1 {
        if PathKey(f) in PathKeys(st.files) {
          var g :| g in st.files && PathKey(g) == PathKey(f);
          assert g in st1.files[..|st.files|];
        } else {
          assert f in st1.files[|st.files|..];
        }
      }
      NewOnlyOfKnownKeys(csv, keys1);
      assert st1.files + NewOnly(csv, keys1) == st1.files;
    }
  }

  lemma {:induction false} NewOnlyOfKnownKeys(files: seq<CsvFile>, keys: set<string>)
    requires forall f :: f in files ==> PathKey(f) in keys
    ensures NewOnly(files, keys) == []
    decreases |files|
  {
    if |files| > 0 {
      NewOnlyOfKnownKeys(files[1..], keys);
    }
  }

  /**
    Files are checked only against the list as it was: two files of one
    batch with the same key are both appended.
   */
  lemma IntakeKeepsDuplicatesWithinBatch(st: UploadState, f: CsvFile)
    requires IsCsv(f) && PathKey(f) !in PathKeys(st.files)
    ensures ProcessFiles(st, [f, f]).state.files == st.files + [f, f]
  {
    assert [f, f][1..] == [f];
    assert CsvOnly([f, f]) == [f, f];
    assert [f, f][1..][1..] == [];
    assert NewOnly([f, f], PathKeys(st.files)) == [f, f];
  }

  predicate DistinctKeys(files: seq<CsvFile>)
  {
    forall i, j :: 0 <= i < j < |files| ==> PathKey(files[i]) != PathKey(files[j])
  }

  /** The list never holds two files with one key, as long as no single batch does. */
  lemma IntakeKeepsKeysDistinct(st: UploadState, batch: seq<CsvFile>)
    requires DistinctKeys(st.files)
    requires DistinctKeys(CsvOnly(batch))
    ensures DistinctKeys(ProcessFiles(st, batch).state.files)
  {
    var csv := CsvOnly(batch);
    if |csv| > 0 {
      var keys := PathKeys(st.files);
      var added := NewOnly(csv, keys);
      NewOnlyKeepsDistinct(csv, keys);
      NewOnlyMembers(csv, keys);
      var files := st.files + added;
      forall i, j | 0 <= i < j < |files| ensures PathKey(files[i]) != PathKey(files[j]) {
        if j >= |st.files| && i < |st.files| {
          assert files[j] in added;
          assert files[i] in st.files;
        } else if i >= |st.files| {
          assert files[i] == added[i - |st.files|] && files[j] == added[j - |st.files|];
        }
      }
    }
  }

  lemma {:induction false} NewOnlyKeepsDistinct(files: seq<CsvFile>, keys: set<string>)
    requires DistinctKeys(files)
    ensures DistinctKeys(NewOnly(files, keys))
    decreases |files|
  {
    if |files| > 0 {
      var rest := files[1..];
      assert DistinctKeys(rest);
      NewOnlyKeepsDistinct(rest, keys);
      NewOnlyMembers(rest, keys);
      var r := NewOnly(files, keys);
      if PathKey(files[0]) !in keys {
        assert r == [files[0]] + NewOnly(rest, keys);
        forall j | 0 < j < |r| ensures PathKey(r[0]) != PathKey(r[j]) {
          assert r[j] in rest;
        }
      }
    }
  }

  /** `removeFile(index)`: drops the file at `index` and keeps the rest in order; any other index changes nothing. */
  function RemoveFile(files: seq<CsvFile>, index: int): (r: seq<CsvFile>)
    ensures 0 <= index < |files| ==> r == files[..index] + files[index + 1..]
    ensures !(0 <= index < |files|) ==> r == files
  {
    if |files| == 0 then []
    else if index == 0 then files[1..]
    else
      var rest := RemoveFile(files[1..], index - 1);
      assert 0 < index < |files| ==> files[..index] == [files[0]] + files[1..][..index - 1];
      assert 0 < index < |files| ==> files[index + 1..] == files[1..][index..];
      [files[0]] + rest
  }

  // ---------------------------------------------------------------------
  // The analyze action
  // ---------------------------------------------------------------------

  /** A row is kept when some cell is not blank after trimming. */
  function IsValidRow(row: Row): (b: bool)
    ensures b ==> |row| > 0
    ensures |row| > 0 && !AllSpace(row[0].value) ==> b
  {
    |row| > 0 && (Trim(row[0].value) != "" || IsValidRow(row[1..]))
  }

  /** The row test looks at every cell: a row is kept exactly when some cell is not all white space. */
  lemma {:induction false} IsValidRowMeans(row: Row)
    ensures IsValidRow(row) <==> exists i :: 0 <= i < |row| && !AllSpace(row[i].value)
    decreases |row|
  {
    if |row| > 0 {
      IsValidRowMeans(row[1..]);
      assert forall i :: 0 < i < |row| ==> row[i] == row[1..][i - 1];
      if IsValidRow(row[1..]) {
        var i :| 0 <= i < |row[1..]| && !AllSpace(row[1..][i].value);
        assert !AllSpace(row[i + 1].value);
      }
    }
  }

  /** The rows of one file that hold any text, in file order. */
  function ValidRows(rows: seq<Row>): (r: seq<Row>)
    ensures |r| <= |rows|
  {
    Filter(rows, IsValidRow)
  }

  /** The filter keeps exactly the rows that hold some text. */
  lemma ValidRowsMembers(rows: seq<Row>)
    ensures forall row :: row in ValidRows(rows) <==> row in rows && IsValidRow(row)
  {
    FilterMembers(rows, IsValidRow);
  }

  /**
    The row filter distributes over concatenation: it keeps the kept rows in
    their order and with their repetitions, whether a file is filtered whole
    or in pieces.
   */
  lemma ValidRowsAppend(a: seq<Row>, b: seq<Row>)
    ensures ValidRows(a + b) == ValidRows(a) + ValidRows(b)
  {
    FilterAppend(a, b, IsValidRow);
  }

  /** Papa Parse on one file: its rows, or `None` when it reports an error. */
  type CsvParser = CsvFile -> Option<seq<Row>>

  /** All kept rows of all files, in file order; `None` when some file fails to parse. */
  function AllValidRows(files: seq<CsvFile>, papa: CsvParser): (r: Option<seq<Row>>)
    ensures |files| == 0 ==> r == Some([])
    ensures r.Some? ==> forall i :: 0 <= i < |files| ==> papa(files[i]).Some?
  {
    if |files| == 0 then Some([])
    else
      match AllValidRows(files[..|files| - 1], papa)
      case None => None
      case Some(prefix) =>
        match papa(files[|files| - 1])
        case None => None
        case Some(rows) => Some(prefix + ValidRows(rows))
  }

  /** Every row handed to the analysis holds some text. */
  lemma {:induction false} AllValidRowsAreValid(files: seq<CsvFile>, papa: CsvParser)
    ensures AllValidRows(files, papa).Some? ==> forall row :: row in AllValidRows(files, papa).value ==> IsValidRow(row)
  {
    if |files| > 0 && AllValidRows(files, papa).Some? {
      var prefix := files[..|files| - 1];
      AllValidRowsAreValid(prefix, papa);
      ValidRowsMembers(papa(files[|files| - 1]).value);
    }
  }

  lemma {:induction false} AllValidRowsFailure(files: seq<CsvFile>, papa: CsvParser)
    ensures AllValidRows(files, papa).None? <==> exists i :: 0 <= i < |files| && papa(files[i]).None?
  {
    if |files| > 0 {
      var prefix := files[..|files| - 1];
      AllValidRowsFailure(prefix, papa);
      assert forall i :: 0 <= i < |prefix| ==> prefix[i] == files[i];
    }
  }

  /** `Math.round(filesProcessed / files.length * 100)`. */
  function Progress(processed: nat, total: nat): (p: int)
    requires 0 < total && processed <= total
    ensures 0 <= p <= 100
    ensures processed == total ==> p == 100
    ensures -0.5 < p as real - processed as real / total as real * 100.0 <= 0.5
  {
    var share := processed as real / total as real;
    assert share <= 1.0;
    assert processed == total ==> share == 1.0;
    Round(share * 100.0)
  }

  /** Progress never goes back as more files finish. */
  lemma ProgressMonotone(k: nat, k': nat, total: nat)
    requires 0 < total && k <= k' <= total
    ensures Progress(k, total) <= Progress(k', total)
  {
    DivideMonotone(k as real, k' as real, total as real);
    RoundMonotone(k as real / total as real * 100.0, k' as real / total as real * 100.0);
  }

  lemma DivideMonotone(x: real, y: real, d: real)
    requires x <= y && d > 0.0
    ensures x / d <= y / d
  {
    assert y / d - x / d == (y - x) / d;
  }

  datatype AnalyzeOutcome =
    | NothingToAnalyze
    | ParseFailed(progress: seq<int>, message: string)
    | Analyzed(progress: seq<int>, analysis: Analysis)

  predicate NonDecreasing(s: seq<int>)
  {
    forall i, j :: 0 <= i < j < |s| ==> s[i] <= s[j]
  }

  /**
    The parsing loop of `handleAnalyze`: the files are parsed one after
    another, reporting progress after each; the first file that fails to
    parse ends the loop.
   */
  method ParseAll(files: seq<CsvFile>, papa: CsvParser) returns (rows: Option<seq<Row>>, progress: seq<int>)
    requires |files| > 0
    ensures rows == AllValidRows(files, papa)
    ensures rows.Some? ==> |progress| == |files|
    ensures rows.None? ==> |progress| < |files| && papa(files[|progress|]).None?
    ensures forall i :: 0 <= i < |progress| ==> papa(files[i]).Some?
    ensures |progress| <= |files| && forall i :: 0 <= i < |progress| ==> progress[i] == Progress(i + 1, |files|)
  {
    var allData: seq<Row> := [];
    progress := [];
    var processed := 0;
    while processed < |files|
      invariant 0 <= processed <= |files| && |progress| == processed
      invariant AllValidRows(files[..processed], papa) == Some(allData)
      invariant forall i :: 0 <= i < processed ==> papa(files[i]).Some?
      invariant forall i :: 0 <= i < processed ==> progress[i] == Progress(i + 1, |files|)
    {
      var parsed := papa(files[processed]);
      match parsed {
        case None =>
          FailureStops(files, papa, processed);
          return None, progress;
        case Some(fileRows) =>
          ParsedStep(files, papa, processed, allData, fileRows);
          allData := allData + ValidRows(fileRows);
          processed := processed + 1;
          progress := progress + [Progress(processed, |files|)];
      }
    }
    assert files[..processed] == files;
    rows := Some(allData);
  }

  /**
    `handleAnalyze`: nothing happens with no files; otherwise the files are
    parsed one after another, reporting progress after each. The first file
    that fails to parse ends the action with an error; when all parse, the
    kept rows of all files are analysed together.
   */
  method HandleAnalyze(files: seq<CsvFile>, papa: CsvParser, parse: ParseFloat) returns (o: AnalyzeOutcome)
    ensures |files| == 0 <==> o.NothingToAnalyze?
    ensures o.Analyzed? <==> |files| > 0 && AllValidRows(files, papa).Some?
    ensures o.Analyzed? ==> o.analysis == AnalyzeData(AllValidRows(files, papa).value, |files|, parse)
    ensures o.Analyzed? ==> |o.progress| == |files| && o.progress[|files| - 1] == 100
    ensures o.ParseFailed? ==> o.message == ParseFailureMessage
    ensures o.ParseFailed? ==> |o.progress| < |files| && papa(files[|o.progress|]).None?
    ensures o.ParseFailed? ==> forall i :: 0 <= i < |o.progress| ==> papa(files[i]).Some?
    ensures !o.NothingToAnalyze? ==> NonDecreasing(o.progress)
    ensures !o.NothingToAnalyze? ==> forall i :: 0 <= i < |o.progress| ==> o.progress[i] == Progress(i + 1, |files|)
  {
    if |files| == 0 {
      return NothingToAnalyze;
    }
    var rows, progress := ParseAll(files, papa);
    ProgressSteps(progress, |files|);
    if rows.None? {
      return ParseFailed(progress, ParseFailureMessage);
    }
    o := Analyzed(progress, AnalyzeData(rows.value, |files|, parse));
  }

  /** One more file parsed: its kept rows follow those of the files before it. */
  lemma ParsedStep(files: seq<CsvFile>, papa: CsvParser, k: nat, before: seq<Row>, fileRows: seq<Row>)
    requires k < |files| && AllValidRows(files[..k], papa) == Some(before) && papa(files[k]) == Some(fileRows)
    ensures AllValidRows(files[..k + 1], papa) == Some(before + ValidRows(fileRows))
  {
    assert files[..k + 1][..k] == files[..k];
  }

  lemma FailureStops(files: seq<CsvFile>, papa: CsvParser, k: nat)
    requires k < |files| && papa(files[k]).None?
    ensures AllValidRows(files, papa).None?
  {
    AllValidRowsFailure(files, papa);
  }

  lemma ProgressSteps(progress: seq<int>, total: nat)
    requires 0 < total && |progress| <= total
    requires forall i :: 0 <= i < |progress| ==> progress[i] == Progress(i + 1, total)
    ensures NonDecreasing(progress)
  {
    forall i, j | 0 <= i < j < |progress| ensures progress[i] <= progress[j] {
      ProgressMonotone(i + 1, j + 1, total);
    }
  }
}
